=== FILE: README.md ===
# Budgeter account restrictions and auth gates, in Dafny

Budgeter is a Next.js personal-budget app that keeps its data in SQLite. This project models its account-restriction and authentication-gate logic, plus the small pure pieces around it.

- **Ban rule.** One rule appears in four places: the credentials `authorize` callback, `GET /api/auth/ban-status`, the fail-open `GET /api/auth/ban-check`, and the unauthenticated `POST /api/auth/check-email`. The rule: not banned; banned and in force (no `banned_until`, or now is before it); banned and lapsed. Three of the four sites lazily clear a lapsed ban.
- **`useBanCheck` poller.** The client hook is an event-driven state machine, re-run by React whenever its dependencies change.
- **Account mutation routes.** `PUT /api/admin/force-password-reset`, `PUT /api/auth/change-password` and `POST /api/auth/register`. Each is an ordered chain of checks that returns a status code and a new or unchanged store.
- **Schema constraints** of `initDb`: keys, foreign keys with their cascades, and `UNIQUE(user_id, name)`. Also `createDefaultCategories`.
- **Column migrations** `migrate-db.js` and `migrate-ban-columns.js`.
- **In-memory API log**: newest first, capped at 100, with its statistics.
- **Transactions route**: the filter builder of `GET` and `DELETE /api/transactions` and the field check of `POST`.

Modules follow the source:

| module | models |
|---|---|
| `Common` | JavaScript truthiness, ASCII case folding, string `length` in UTF-16 units, `toString` of ids, `slice` |
| `Users` | `users` rows and the three lookups the routes issue against them |
| `Ban` | the shared ban rule |
| `Auth` | `lib/auth.ts` |
| `BanRoutes` | the ban-status, ban-check and check-email routes |
| `BanPoller` | `lib/useBanCheck.ts` |
| `Schema` | `lib/db.ts` |
| `Accounts` | the force-reset, change-password and register routes |
| `Migrations` | the two migration scripts |
| `ApiLogger` | `lib/apiLogger.ts` |
| `Transactions` | `app/api/transactions/route.ts` |

**How the data is represented**

- Timestamps are integers (milliseconds).
- Strings are sequences of Unicode characters. Where the code compares a string's `length` or pads it, the model counts UTF-16 units (`Common.Utf16Length`): a character above U+FFFF counts twice, as in JavaScript.
- A `banned_until` text that `new Date` cannot parse is its own value, `Unparseable`. Such a date is truthy, and every comparison with it is false.
- The `users` table is a sequence in rowid order rather than a map. `.get()` on `LOWER(email) = LOWER(?)` returns the first match in that order, and `UNIQUE(email)` compares case-sensitively. So several rows can answer one case-insensitive lookup, and the order decides which one wins.
- Categories and transactions are maps from id to row. Each table has an AUTOINCREMENT counter.

**Parameters**

- bcrypt's compare is a parameter `matches`, and a new hash is a parameter.
- The clock is a parameter `now`.
- Every route model takes a boolean `fails`: the first database or bcrypt call inside the route's `try` block throws. It comes after every check that needs no store, such as the session check and, where they come first, the body checks, so those checks answer the same whether or not `fails` is set. From that point on, a route with `fails` answers 500, or not banned for the fail-open ban-check, and writes nothing.
- A body that `request.json()` cannot parse is `None`.
- How SQLite evaluates `LIKE`, `strftime` and REAL comparisons is a parameter `holds`.

**Behaviours worth knowing.** The model follows the code in each case.

- The auto-unban clears three columns, not four. `banned_by` is kept (see `Ban.ClearKeepsBannedBy`).
- check-email tells an unauthenticated caller whether an address has an account and whether it is banned.
- `force_password_reset` is not a column of the `users` table that `initDb` creates, and neither migration adds it. The force-reset route therefore takes `columnExists`. Without the column, its `UPDATE` throws and the route answers 500.

## Model

| member | source | states |
|---|---|---|
| `Ban.EvaluateCases` | lib/auth.ts:48-59 | each of not banned / in force / lapsed / unparseable holds exactly when its condition on `is_banned`, `banned_until` and now holds |
| `Ban.LapseIsMonotone` | app/api/auth/ban-status/route.ts:30-44 | as time passes, a ban only moves from in force to lapsed, never back |
| `Ban.DeadlineIsTheBoundary` | app/api/auth/ban-check/route.ts:33-42 | a timed ban is in force one millisecond before its deadline and lapsed at the deadline |
| `Ban.PermanentBanNeverLapses` | app/api/auth/ban-status/route.ts:32-35 | a ban without `banned_until` is in force at every time |
| `Ban.ClearIsFinal` | lib/auth.ts:58-62 | after the expiry write the row is not banned at any time, and a second write changes nothing |
| `Ban.ClearKeepsBannedBy` | app/api/auth/ban-status/route.ts:45-47 | the expiry write leaves `banned_by` naming the admin on a row that is no longer banned |
| `Users.Find` | lib/auth.ts:30 | the lookup returns the first row in rowid order that matches the key, or none exactly when no row matches |
| `Users.FindIdUnique` | app/api/auth/ban-status/route.ts:15-17 | with ascending ids, looking up a row's id finds exactly that row |
| `Users.FindAfterClear` | app/api/auth/ban-check/route.ts:43-45 | the expiry write changes no lookup's answer |
| `Users.ClearExpiredBan` | lib/auth.ts:60 | `is_banned`, `ban_reason` and `banned_until` become cleared; every other column, `banned_by` included, is kept |
| `Users.UpdateWhereId` | app/api/auth/ban-status/route.ts:45-47 | rows with the id get the update, all others are untouched, and the length is kept |
| `Users.NewUser` | lib/db.ts:19-23 | a new row has the given fields, is not banned and has null ban columns |
| `Auth.Authorize` | lib/auth.ts:24-77 | a missing email or password, or a raised error, is refused with no write. A login succeeds exactly when the first case-insensitive match exists, the password matches and the ban is not in force. The identity is that row's, with its id in decimal. The store changes exactly when that ban had lapsed, and only by clearing it |
| `Auth.BannedLoginDenied` | lib/auth.ts:48-56 | a correct password on a row whose ban is in force is refused and nothing is written |
| `Auth.LapsedBanLoginClears` | lib/auth.ts:58-65 | a lapsed ban lets the user in, clears the three columns of that row only, and leaves it not banned |
| `Auth.IdentityAddressesItsRow` | lib/auth.ts:67-72 | the identity's id parses back to the row's id, and that id finds the same row after the write |
| `Auth.LaterCaseVariantShadowed` | lib/auth.ts:30 | of two rows whose emails differ only in case, a login never yields the later row's identity |
| `Auth.SignIn` | lib/auth.ts:84-105 | vetoes exactly when no user was produced, an email was given, and the row it resolves to has `is_banned` set |
| `Auth.SignInAfterAuthorize` | lib/auth.ts:84-105 | after a successful `authorize`, `signIn` never vetoes |
| `Auth.Jwt` | lib/auth.ts:106-112 | with a user the token takes its role and id, and nothing else changes; without one the token is unchanged |
| `Auth.RoleIsFrozen` | lib/auth.ts:106-112 | any number of later `jwt` calls keep the role and id captured at sign-in |
| `Auth.SessionCallback` | lib/auth.ts:113-119 | the session user gets the token's id and role and keeps its email and name; no user means no change |
| `Auth.SessionKeepsSignInRole` | lib/auth.ts:106-119 | however often the token is refreshed after sign-in, the session reports the role and id captured at sign-in |
| `BanRoutes.BanStatus` | app/api/auth/ban-status/route.ts:6-68 | 401 exactly without a session, before any database call. With a session: 500 exactly on a thrown error or a session without a user. Otherwise 404 exactly when the id is missing, since it is bound as NULL, or when it finds no row. So every found row answers 200 with the live verdict: reason and deadline while the ban is in force, and "not banned" with the expiry clear once it has lapsed. Errors leave the store alone |
| `BanRoutes.BanStatusGatesBeforeStore` | app/api/auth/ban-status/route.ts:10-27 | no session answers 401 even when the database would throw; a session user without an id answers 404 |
| `BanRoutes.BanStatusIdempotent` | app/api/auth/ban-status/route.ts:43-63 | a second call on the store the first left behind gives the same answer and writes nothing |
| `BanRoutes.ExpiredBanScenario` | app/api/auth/ban-status/route.ts:43-55 | a ban whose deadline has passed reports not banned, and the row is cleared |
| `BanRoutes.BanCheck` | app/api/auth/ban-check/route.ts:6-55 | an error or no session id answers not banned with no write; a "banned" answer comes with an unchanged store |
| `BanRoutes.BanCheckAgreesWithBanStatus` | app/api/auth/ban-check/route.ts:28-50 | wherever ban-status answers 200, ban-check gives the same verdict and the same store |
| `BanRoutes.BanCheckFailsOpen` | app/api/auth/ban-check/route.ts:51-54 | wherever ban-status answers an error, ban-check answers not banned |
| `BanRoutes.CheckEmail` | app/api/auth/check-email/route.ts:4-50 | the status is 200, 400 or 500. 500 exactly for an unreadable body, or a thrown error at the lookup of a given email; 400 exactly for a missing email, before any database call; unknown exactly when no row folds to the email. A known email answers 200: banned, with reason, deadline and permanence, exactly when the ban is in force, and "not banned" otherwise. Nothing is written |
| `BanRoutes.CheckEmailGatesBeforeStore` | app/api/auth/check-email/route.ts:6-12 | a body without a truthy email answers 400 even when the database would throw |
| `BanRoutes.CheckEmailIgnoresClear` | app/api/auth/check-email/route.ts:26-45 | the answer is the same before and after a ban-status call has cleared a lapsed ban |
| `BanRoutes.CheckEmailFoldsCase` | app/api/auth/check-email/route.ts:12-14 | a case variant of a stored email gets the same answer as the email |
| `BanPoller.CheckBanStatus` | lib/useBanCheck.ts:25-35 | nothing happens unless authenticated, idle and a minute has passed; otherwise a request starts and `lastCheck` is stamped now |
| `BanPoller.OnResponse` | lib/useBanCheck.ts:37-87 | a "banned" reply signs out, records the info and starts a countdown of 10; any other outcome only resets `checking` |
| `BanPoller.OnCountdownTick` | lib/useBanCheck.ts:54-79 | a tick above 1 counts down; a tick at 1 or below stops the interval, sets 0 and navigates once; nothing else changes |
| `BanPoller.Cleanup` | lib/useBanCheck.ts:111-122 | both intervals are cleared and the init flag is reset; nothing else changes |
| `BanPoller.Setup` | lib/useBanCheck.ts:90-109 | off when unauthenticated; once per authenticated period; the initial check only when the throttle allows, stamping `lastCheck` now when it starts; the poll interval is started; the ban info, the countdown and the rest of the state are kept |
| `BanPoller.OnVisible` | lib/useBanCheck.ts:126-137 | a regained tab starts a check, stamped now, exactly when the user is authenticated, no check is in flight and a minute has passed; otherwise nothing changes |
| `BanPoller.RerenderSettles` | lib/useBanCheck.ts:88-123 | the effect re-runs that a dependency change triggers stop after two rounds |
| `BanPoller.CountdownRedirectsOnLastTick` | lib/useBanCheck.ts:54-79 | from countdown c, the first c-1 ticks only count down, the c-th navigates, and no later tick navigates again |
| `BanPoller.TicksIdleWithoutTimer` | lib/useBanCheck.ts:117-120 | without a live countdown interval, no number of ticks changes anything |
| `BanPoller.FailedCheckStillThrottles` | lib/useBanCheck.ts:34-35 | a failed or non-OK check still blocks poll and visibility checks for the next minute |
| `BanPoller.CountdownCancelledAsWritten` | lib/useBanCheck.ts:43-54 | as written, the re-run caused by resetting `checking` clears the countdown that a "banned" reply just started, so no tick ever navigates |
| `BanPoller.CountdownRedirectsWhenSpared` | lib/useBanCheck.ts:43-79 | when the re-run spares the countdown, the 10th tick after a ban navigates and no earlier one does |
| `BanPoller.SignOutSparesCountdown` | lib/useBanCheck.ts:90-94 | in the corrected hook, losing the session leaves the running countdown alone |
| `BanPoller.LoginBannedTrace` | lib/useBanCheck.ts:90-109 | log in, get a "banned" reply, then ten ticks: no navigation as written, exactly one when corrected |
| `Schema.InsertCategory` | lib/db.ts:69-79 | an insert succeeds exactly when the user exists and does not already own the name; the row takes the next counter value |
| `Schema.InsertCategoryKeepsValid` | lib/db.ts:69-79 | a successful insert keeps every constraint |
| `Schema.InsertCategories` | lib/db.ts:100-116 | the inserts touch only categories and their counter; a complete batch advances the counter by the number of entries |
| `Schema.InsertCategoriesKeepsValid` | lib/db.ts:100-116 | every constraint holds after a batch, however far it got |
| `Schema.InsertCategoriesSucceed` | lib/db.ts:100-116 | distinct names that the existing user does not own all go in |
| `Schema.InsertCategoriesPlacement` | lib/db.ts:102-115 | entry i of a complete batch sits at id counter + 1 + i, owned by the user, with its name, kind and limit |
| `Schema.AllDistinctSound` | lib/db.ts:78 | the index scan that accepts a list means its names are pairwise distinct |
| `Schema.SeedDefaultsDistinct` | lib/db.ts:104-115 | 9 rows with pairwise distinct names |
| `Schema.SeedDefaultsLimits` | lib/db.ts:104-115 | expense limits 600, 200, 300, 500, 200, 150, 200 in order; two income rows at 0; no "other" rows |
| `Schema.SeedingFreshUser` | lib/db.ts:100-116 | for an existing user with no categories, seeding succeeds, adds nine rows and keeps every constraint |
| `Schema.DeleteUser` | lib/db.ts:26 | the delete is refused exactly when another row names the user in `banned_by` |
| `Schema.RemoveUserKeepsValid` | lib/db.ts:14-28 | removing a user no one names keeps the users' constraints and removes exactly that id |
| `Schema.DeleteUserCascades` | lib/db.ts:77-92 | after a delete no category or transaction refers to the user and every constraint holds. Every other user and every other user's category stay unchanged. A transaction stays, unchanged, exactly when it is another user's and its category stays, so another user's transaction filed under the deleted user's category goes with it |
| `Schema.BannerCannotBeDeleted` | lib/db.ts:23-26 | an admin named in another row's `banned_by` cannot be deleted, even after that row's ban was auto-cleared |
| `Schema.DeleteCategory` | lib/db.ts:93 | the category goes with its transactions. The other categories and transactions stay unchanged, and the users and counters are untouched |
| `Schema.DeleteCategoryKeepsValid` | lib/db.ts:68-95 | deleting a category keeps every constraint |
| `Accounts.ForcePasswordReset` | app/api/admin/force-password-reset/route.ts:8-61 | 401 exactly without a session email. 500 exactly for a thrown database error after the session check, an unreadable body or a missing column. Without an error: 403 exactly when the caller's stored row is missing or not admin, 400 exactly for a falsy `userId` or a non-boolean flag, 404 exactly for an absent target. So a valid admin call on any existing target, admin or not, answers 200 when the column exists. Every error leaves the store alone, and a 200 changes only the target's flag and timestamp |
| `Accounts.ForceResetIdempotent` | app/api/admin/force-password-reset/route.ts:42-45 | repeating a successful call gives the same state |
| `Accounts.ForceResetIgnoresTokenRole` | app/api/admin/force-password-reset/route.ts:15-21 | the role carried in the session token plays no part |
| `Accounts.DemotedAdminRefused` | app/api/admin/force-password-reset/route.ts:15-21 | a token saying admin over a stored role of user gets 403 |
| `Accounts.AdminMayTargetSelf` | app/api/admin/force-password-reset/route.ts:33-45 | an admin may flag their own row |
| `Accounts.ChangePassword` | app/api/auth/change-password/route.ts:9-63 | 401 exactly without a session email. 500 exactly for an unreadable body, or a thrown database or bcrypt error once both fields are present and the new password is long enough. 400 exactly for a missing field, a new password under 6 UTF-16 units, or, without an error, a wrong current password or an unchanged one. 404 exactly when, without an error, no row folds to the email. So every other request answers 200. Errors write nothing, and a 200 changes only that row's hash and timestamp |
| `Accounts.ChangePasswordTouchesOneRow` | app/api/auth/change-password/route.ts:52-56 | with distinct ids exactly one row changes |
| `Accounts.ChangedPasswordLogsIn` | app/api/auth/change-password/route.ts:46-56 | afterwards the new password logs in and the old one does not |
| `Accounts.RegisterDefaultsDistinct` | app/api/auth/register/route.ts:46-64 | 12 categories with pairwise distinct names |
| `Accounts.RegisterDefaultsLimits` | app/api/auth/register/route.ts:49-64 | expense limits 600, 200, 300, 500, 200, 150, 200; three income and two other rows at 0 |
| `Accounts.NextUserId` | lib/db.ts:15 | the new id exceeds the counter and every id in the table |
| `Accounts.RegisterWith` | app/api/auth/register/route.ts:15-71 | 400 exactly for missing fields or a password under 6 UTF-16 units. An unreadable body, or a thrown database or bcrypt error after validation, answers 500. 409 exactly when, without an error, the duplicate lookup finds a row. 400, 409, a thrown error and an unreadable body leave the store alone. A 201 appends one user with role `user` and the next id, answers that id, and leaves transactions alone |
| `Accounts.Register` | app/api/auth/register/route.ts:29-33 | 409 exactly when, without an error, an exactly equal email exists |
| `Accounts.InsertUserKeepsValid` | lib/db.ts:14-28 | the new row keeps the users' constraints and owns nothing |
| `Accounts.DuplicateCheckCoversUnique` | app/api/auth/register/route.ts:29-41 | whichever duplicate lookup is used, a miss means no row has exactly the same email, so `UNIQUE(email)` never refuses the insert |
| `Accounts.RegisterSucceeds` | app/api/auth/register/route.ts:39-66 | valid input with no account under the duplicate key answers 201 when nothing throws, places the 12 categories at the next ids, and leaves every constraint intact |
| `Accounts.RegisterShadowsCaseVariant` | app/api/auth/register/route.ts:29-43 | as written, with `a@x` stored, registering `A@x` answers 201, and a login as `A@x` reaches the old row |
| `Accounts.RegisterFoldedKeepsFoldedUnique` | app/api/auth/register/route.ts:29-43 | with a case-insensitive duplicate check, no two emails ever fold together |
| `Accounts.FoldedUniqueLoginReachesEveryRow` | lib/auth.ts:30 | when no two emails fold together, every row is the one a login with its email finds |
| `Migrations.AddColumn` | migrate-db.js:25-28 | `ADD COLUMN` is refused exactly when the name exists; otherwise the column is appended |
| `Migrations.MissingColumnsExactly` | migrate-db.js:15-31 | the columns to add are exactly the ban columns whose names are absent |
| `Migrations.MigrateDatabase` | migrate-db.js:12-38 | the run appends exactly the missing ban columns after the untouched old ones and reports how many it added |
| `Migrations.MigrateAddsExactlyMissing` | migrate-db.js:15-38 | afterwards all four ban columns exist, old columns come first unchanged, and the count is the number that were missing |
| `Migrations.MigrateIdempotent` | migrate-db.js:24-31 | a second run adds nothing and reports 0 |
| `Migrations.AddAll` | migrate-ban-columns.js:22-36 | the ALTERs run in order, and the columns already there stay first. A completed run has appended every column in order. A failed run has appended exactly the columns before some column whose name was taken, and stopped there |
| `Migrations.AddAllFailsOnPresent` | migrate-ban-columns.js:22-36 | a list that names a column already in the table always fails |
| `Migrations.BanMigrationKeyedOnFlag` | migrate-ban-columns.js:15-19 | with `is_banned` present nothing is added, whatever else is missing |
| `Migrations.BanMigrationAddsAllFour` | migrate-ban-columns.js:22-36 | on a table with none of the four, they are appended in order |
| `Migrations.BanMigrationFailsOnPartialTable` | migrate-ban-columns.js:22-49 | without `is_banned` but with `ban_reason`, the script fails after adding one column, while migrate-db.js completes |
| `Migrations.BanMigrationFailsOnAnyPartialTable` | migrate-ban-columns.js:15-49 | without `is_banned`, any one of the other three ban columns already present makes the script fail, after it has appended `is_banned` |
| `Migrations.FreshSchemaNeedsNoMigration` | lib/db.ts:14-28 | both scripts leave the table `initDb` creates unchanged |
| `ApiLogger.Log` | lib/apiLogger.ts:19-24 | the entry goes first, the old entries follow in order, and the length is min(old + 1, 100) |
| `ApiLogger.LogKeepsNewest` | lib/apiLogger.ts:17-24 | after any run of logs the log is the newest 100 entries, newest first |
| `ApiLogger.GetLogs` | lib/apiLogger.ts:26-28 | an absent or zero limit returns everything; a positive limit returns the first `limit` entries; a negative one drops that many from the end |
| `ApiLogger.Clear` | lib/apiLogger.ts:30-32 | the log becomes empty |
| `ApiLogger.BumpCounts` | lib/apiLogger.ts:49 | one count raises the key's count and the total by one and leaves the other keys alone |
| `ApiLogger.TallyCounts` | lib/apiLogger.ts:47-58 | every key's count is its number of occurrences, and the counts add up to the number of entries |
| `ApiLogger.RoundedMean` | lib/apiLogger.ts:67-69 | the result is the nearest integer to sum/count, with halves rounded up |
| `ApiLogger.GetStats` | lib/apiLogger.ts:34-72 | the total is the length. Method, path and status-group counts are the tallies. Errors count entries with an error or a status of 400 or more. The average is the rounded mean of the truthy durations, or 0 when there are none |
| `ApiLogger.MethodCountsAddUp` | lib/apiLogger.ts:36-49 | the method counts add up to the total, and each is the number of entries with that method |
| `ApiLogger.LogCountsErrors` | lib/apiLogger.ts:40 | logging below the cap raises the error count by one exactly for an error entry |
| `ApiLogger.StatusGroupIff` | lib/apiLogger.ts:55-58 | two statuses share a group exactly when their hundreds agree |
| `Transactions.OperatorOf` | app/api/transactions/route.ts:53-59 | only greater, less and equal are recognised |
| `Transactions.PadStart2` | app/api/transactions/route.ts:38 | the month is left-padded with "0" to a JavaScript length of at least two UTF-16 units, and ends with the original |
| `Transactions.MonthFilter` | app/api/transactions/route.ts:36-39 | the month filter exists exactly when both month and year are given; it comes first and binds the year, then the padded month |
| `Transactions.DescriptionFilter` | app/api/transactions/route.ts:42-45 | the description filter exists exactly when a description is given, and binds `%description%` |
| `Transactions.CategoryFilter` | app/api/transactions/route.ts:47-50 | the category filter exists exactly when a category id is given, and binds the raw id |
| `Transactions.AmountFilter` | app/api/transactions/route.ts:52-61 | an amount condition exists exactly for a recognised operator with both parameters present |
| `Transactions.BuildFiltersArity` | app/api/transactions/route.ts:52-61 | as written, the bound values equal the placeholders unless an unrecognised operator comes with an amount; then there is one value too many |
| `Transactions.BuildFiltersCheckedArity` | app/api/transactions/route.ts:52-61 | corrected: the values always equal the placeholders, and a recognised operator changes nothing |
| `Transactions.SelectSql` | app/api/transactions/route.ts:23-67 | the statement starts with the user-scoped SELECT and ends with the newest-first ORDER BY |
| `Transactions.DeleteSql` | app/api/transactions/route.ts:129-162 | without conditions the statement is exactly `DELETE FROM transactions`; with conditions it adds a WHERE |
| `Transactions.GetHandler` | app/api/transactions/route.ts:8-74 | the status is 200, 401 or 500. 401 exactly without a truthy session id. With one, 500 exactly for a thrown database error or the unrecognised-operator case, so every other request answers 200. A 200 lists with the user condition bound to the session id, followed by exactly the builder's filters and values |
| `Transactions.GetFiltersByMonth` | app/api/transactions/route.ts:30-39 | a month listing binds the session id, then the year, then the padded month |
| `Transactions.GetOnlyOwnRows` | app/api/transactions/route.ts:30-33 | every row GET returns belongs to the session's user |
| `Transactions.RunDelete` | app/api/transactions/route.ts:164-173 | the status is 200 or 500. A thrown error or a placeholder mismatch answers 500 with no write. Otherwise, 200: exactly the rows every bound condition holds for are removed, the others are kept unchanged, and `deletedCount` is the number removed |
| `Transactions.DeleteHandler` | app/api/transactions/route.ts:119-174 | the route answers 200 or 500 and never 401: 200 exactly without a thrown error or an unrecognised operator. A 200 removes exactly the rows, of every user, that all of the builder's bound filters match, and keeps the others unchanged. A 500 writes nothing |
| `Transactions.DeleteWithoutFiltersTakesAll` | app/api/transactions/route.ts:129-166 | as written, a DELETE without filters removes every row of every user |
| `Transactions.DeleteScoped` | app/api/transactions/route.ts:119-174 | corrected: the status is 200, 401 or 500. 401 exactly without a session id; with one, 500 exactly for a thrown error and 200 otherwise. A 200 removes exactly the caller's rows that every checked filter matches, and keeps all other rows unchanged. Nothing is written on an error |
| `Transactions.DeleteScopedNarrowsDelete` | app/api/transactions/route.ts:119-174 | with a session and well-formed filters, the corrected DELETE answers as the route as written does, and removes exactly the rows it removes that belong to the caller |
| `Transactions.PostHandler` | app/api/transactions/route.ts:76-113 | the status is 201, 400, 401 or 500. 401 exactly without a session id. 400 exactly for a falsy `category_id`, `amount` (0 included) or `date`. 500 exactly for an unreadable body, or, for a valid body, a thrown database error or an unknown user or category. So a valid body for an existing user and category answers 201 and inserts one row with the next id, with an empty description stored as null. Every other outcome writes nothing |
| `Transactions.PostKeepsValid` | app/api/transactions/route.ts:90-93 | an insert keeps every constraint, foreign keys included |
| `Common.IntDecimalRoundTrip` | lib/auth.ts:68 | the decimal form of an id parses back to the id |
| `Common.IntToDecimalInjective` | lib/auth.ts:68 | different ids have different decimal forms |
| `Common.LowerIdempotent` | lib/auth.ts:30 | folding case twice is folding once |
| `Common.Utf16Length` | app/api/auth/change-password/route.ts:21 | a string's JavaScript length lies between its character count and twice that |
| `Common.Utf16LengthAppend` | app/api/auth/register/route.ts:24 | the JavaScript length of a concatenation is the sum of the lengths |
| `Common.Utf16LengthBmp` | app/api/auth/change-password/route.ts:21 | the JavaScript length equals the character count exactly when no character lies above U+FFFF |

## Left out

- The admin ban and unban endpoint (`PATCH /api/admin/users/[id]`). It sets the ban columns, but its server code is not part of this model, so the model does not invent it. Ban fields appear in the model only as already stored.
- UI components and pages, theme and dark-mode providers. They are rendering, DOM and localStorage state.
- The summary route and the admin user-list route. They are SQL aggregation over REAL amounts.
- `lib/middleware.ts`, the debug routes, and the one-off scripts `create-admin.js`, `add-categories.js` and `test-force-reset.js`. They do I/O with hard-coded data, or only echo requests.
- NextAuth transport, bcrypt, timers, `window.location` and `fetch`. They are parameters or events, as described above.
- The accounts, sessions and verification_tokens tables of `initDb`. Nothing in the core reads them.
- Request fields of JSON types other than those the routes expect. A JSON number where a string is expected, and the like, is not modelled.
- The columns and order of GET's result rows, and the SELECT after POST's insert. These are read-only SQL over the modelled rows.
- `Transactions.Holds`: the `LIKE`, `strftime` and REAL comparisons are the parameter `holds`. Only the user-id condition is evaluated, as SQLite's integer comparison with the bound decimal text.
- `Transactions.SelectSql`: states the statement's start and end but not how the conditions render between them. The text of each condition is `Transactions.Render`.
- `BanPoller.OnVisible`: the visibility handler's check runs on a 1 s `setTimeout`, with the `checkBanStatus` of the render that registered the handler. The model runs the check at once, with the poller's current state, at the time the event carries.
- `BanPoller.ReactStep`: models one render as at most two rounds of effect re-runs (`Rerender`). `BanPoller.RerenderSettles` proves that two rounds suffice. The visibility effect's own registration is not modelled; only its handler is.
- `Migrations.AddColumn`: compares column names exactly, as `Array.prototype.includes` does. SQLite's case-insensitive column names are not modelled.
- `Accounts.ForcePasswordReset`: the parameter `columnExists` stands for the `force_password_reset` column that only `test-force-reset.js` adds.
- `Auth.SignIn`: a database error inside `signIn` escapes the callback. The model treats it as no veto.
- `BanRoutes.BanStatus`: a `getServerSession` that throws, which the route's `catch` turns into a 500, is not modelled. `fails` covers only the database.
- `Common.IntToDecimal`: a JavaScript number's `toString` is modelled for integers only. Ids are integers.
- `Common.ParseInt`: accepts only an optional `-` followed by decimal digits. SQLite's integer affinity also converts text such as `+5`, ` 5` or `5.0`. The only text the model parses is a session id, which `Auth.Jwt` writes with `toString`, so those forms do not arise.
- `fails`: an error is modelled only at the first database or bcrypt call of a route. An error thrown later is indistinguishable from it wherever every later call precedes the only write. Registration writes the user and then its categories; an error between those writes, which leaves the user without a full set, is modelled only as the refusals `Schema.InsertCategories` states.

## Findings

| source | as written | input that shows it | evidently intended | confidence | as-written member | corrected member |
|---|---|---|---|---|---|---|
| lib/useBanCheck.ts:43-54,88,111-123 | the countdown interval is started inside `checkBanStatus`. Resetting `checking` in `finally` changes a dependency of the effect, whose cleanup clears that interval | log in while banned: the initial check answers "banned", `checking` flips back to false, and the re-run clears the countdown | the ban notice counts down from 10 and the 10th tick navigates to "/" | not executed | `BanPoller.CountdownCancelledAsWritten`, `BanPoller.LoginBannedTrace` | `BanPoller.CountdownRedirectsWhenSpared` |
| app/api/transactions/route.ts:52-61,149-158 | `params.push(amount)` runs for any operator, but a condition is pushed only for greater, less or equal | `GET /api/transactions?amount=5&amountOperator=between` binds one value more than the statement has placeholders; better-sqlite3 throws and the route answers 500 | an unknown operator is ignored, binding nothing | not executed | `Transactions.BuildFiltersArity` | `Transactions.BuildFiltersCheckedArity` |
| app/api/auth/register/route.ts:29-33 | the duplicate check compares emails exactly, while login compares them case-insensitively | with `a@x` registered, registering `A@x` answers 201. A login as `A@x` then reaches the first row, so the second account can never be used | an email that differs only in case is a duplicate (409) | not executed | `Accounts.RegisterShadowsCaseVariant`, `Auth.LaterCaseVariantShadowed` | `Accounts.RegisterFoldedKeepsFoldedUnique` |
| app/api/transactions/route.ts:119-166 | `deleteHandler` checks no session and adds no `user_id` condition | `DELETE /api/transactions` with no query, as app/transactions/page.tsx:80-96 sends in all-time view, deletes every user's transactions, and does so without a login | delete only the caller's own transactions, and answer 401 without a session, as GET does | not executed | `Transactions.DeleteWithoutFiltersTakesAll` | `Transactions.DeleteScoped`, `Transactions.DeleteScopedNarrowsDelete` |

=== FILE: accounts.dfy ===
/** The account routes that write to `users`:
    app/api/admin/force-password-reset/route.ts (admin-gated flag setter),
    app/api/auth/change-password/route.ts and app/api/auth/register/route.ts.

    bcrypt is abstract: `matches(password, hash)` stands for
    `bcrypt.compare`, and the salted hash a route computes is passed in as
    `hash`. `CURRENT_TIMESTAMP` is the parameter `now`. A request whose
    body is not JSON makes `request.json()` throw; that is `request == None`,
    and the route's `catch` answers 500. */
module Accounts {
  import opened Common
  import opened Users
  import opened Ban
  import opened Auth
  import opened Schema

  datatype AccountBody =
    | Failure(error: string)
    | Message(text: string)
    | ResetDone(targetEmail: string, userId: int, forceReset: bool)
    | Created(userId: int)

  datatype Outcome = Outcome(reply: Reply<AccountBody>, users: Table)

  /** `session?.user?.email`, when truthy. */
  function SessionEmail(session: Option<Session>): (r: Option<string>)
    ensures r.Some? <==> session.Some? && session.value.user.Some? && Present(session.value.user.value.email)
    ensures r.Some? ==> r == session.value.user.value.email
  {
    if session.Some? && session.value.user.Some? && Present(session.value.user.value.email)
    then session.value.user.value.email
    else None
  }

  // -----------------------------------------------------------------------
  // PUT /api/admin/force-password-reset

  /** The JSON body; `forceReset` is `None` unless it is a boolean. */
  datatype ResetRequest = ResetRequest(userId: Option<int>, forceReset: Option<bool>)

  /** The caller is an admin by the row their session email resolves to. */
  predicate CallerIsAdmin(users: Table, email: string) {
    var a := Find(users, EmailFolded(email));
    a.Some? && users[a.value].role == Admin
  }

  /** The row after the flag write. */
  function SetForceReset(flag: bool, now: int): UserRecord -> UserRecord {
    (u: UserRecord) => u.(forcePasswordReset := flag, updatedAt := now)
  }

  /** `columnExists` says whether the database has a `force_password_reset`
      column; neither `initDb` nor the migration scripts add one, and
      without it the UPDATE raises and the route answers 500. */
  function ForcePasswordReset(users: Table, session: Option<Session>, request: Option<ResetRequest>,
                              now: int, columnExists: bool, fails: bool): (r: Outcome)
    ensures r.reply.status in {200, 400, 401, 403, 404, 500}
    ensures r.reply.status == 401 <==> SessionEmail(session).None?
    // the role comes from the store, and the check precedes reading the body
    ensures r.reply.status == 403 <==>
      SessionEmail(session).Some? && !fails && !CallerIsAdmin(users, SessionEmail(session).value)
    ensures r.reply.status == 400 <==>
      && SessionEmail(session).Some? && !fails && CallerIsAdmin(users, SessionEmail(session).value)
      && request.Some? && (!PresentInt(request.value.userId) || request.value.forceReset.None?)
    ensures r.reply.status == 404 <==>
      && SessionEmail(session).Some? && !fails && CallerIsAdmin(users, SessionEmail(session).value)
      && request.Some? && PresentInt(request.value.userId) && request.value.forceReset.Some?
      && Find(users, IdIs(request.value.userId.value)).None?
    // a thrown database error, an unreadable body, or a missing column under the write
    ensures r.reply.status == 500 <==>
      && SessionEmail(session).Some?
      && (|| fails
          || (&& CallerIsAdmin(users, SessionEmail(session).value)
              && (|| request.None?
                  || (&& PresentInt(request.value.userId) && request.value.forceReset.Some?
                      && Find(users, IdIs(request.value.userId.value)).Some? && !columnExists))))
    ensures r.reply.status != 200 ==> r.users == users && r.reply.body.Failure?
    // success: the flag and the timestamp of the rows with that id, nothing else
    ensures r.reply.status == 200 ==>
      && !fails && columnExists && request.Some? && PresentInt(request.value.userId)
      && request.value.forceReset.Some?
      && var id := request.value.userId.value;
      && var flag := request.value.forceReset.value;
      && Find(users, IdIs(id)).Some?
      && r.reply.body == ResetDone(users[Find(users, IdIs(id)).value].email, id, flag)
      && |r.users| == |users|
      && (forall j :: 0 <= j < |users| && users[j].id != id ==> r.users[j] == users[j])
      && (forall j :: 0 <= j < |users| && users[j].id == id ==>
            r.users[j].forcePasswordReset == flag && r.users[j].updatedAt == now
            && r.users[j].(forcePasswordReset := users[j].forcePasswordReset,
                           updatedAt := users[j].updatedAt) == users[j])
  {
    match SessionEmail(session)
    case None => Outcome(Reply(401, Failure("Unauthorized")), users)
    case Some(email) =>
      if fails then Outcome(Reply(500, Failure("Internal server error")), users)
      else if !CallerIsAdmin(users, email) then Outcome(Reply(403, Failure("Admin access required")), users)
      else if request.None? then Outcome(Reply(500, Failure("Internal server error")), users)
      else if !PresentInt(request.value.userId) || request.value.forceReset.None? then
        Outcome(Reply(400, Failure("Invalid parameters. userId and forceReset (boolean) are required")), users)
      else
        var id := request.value.userId.value;
        var flag := request.value.forceReset.value;
        match Find(users, IdIs(id))
        case None => Outcome(Reply(404, Failure("User not found")), users)
        case Some(t) =>
          if !columnExists then Outcome(Reply(500, Failure("Internal server error")), users)
          else Outcome(Reply(200, ResetDone(users[t].email, id, flag)), UpdateWhereId(users, id, SetForceReset(flag, now)))
  }

  /** A write that keeps every id, email and role leaves the admin check and
      both lookups as they were. */
  lemma FlagWriteKeepsLookups(users: Table, after: Table, id: int, email: string)
    requires |after| == |users|
    requires forall j :: 0 <= j < |users| ==>
               after[j].id == users[j].id && after[j].email == users[j].email && after[j].role == users[j].role
    ensures Find(after, EmailFolded(email)) == Find(users, EmailFolded(email))
    ensures Find(after, IdIs(id)) == Find(users, IdIs(id))
    ensures CallerIsAdmin(after, email) == CallerIsAdmin(users, email)
  {
    assert forall j :: 0 <= j < |users| ==>
      (Matches(after[j], EmailFolded(email)) <==> Matches(users[j], EmailFolded(email)));
    assert forall j :: 0 <= j < |users| ==> (Matches(after[j], IdIs(id)) <==> Matches(users[j], IdIs(id)));
    FindSameMatches(users, after, EmailFolded(email), 0);
    FindSameMatches(users, after, IdIs(id), 0);
  }

  /** Repeating a successful call changes nothing further. */
  lemma ForceResetIdempotent(users: Table, session: Option<Session>, request: Option<ResetRequest>,
                             now: int)
    requires ForcePasswordReset(users, session, request, now, true, false).reply.status == 200
    ensures var once := ForcePasswordReset(users, session, request, now, true, false);
            var twice := ForcePasswordReset(once.users, session, request, now, true, false);
            twice.reply.status == 200 && twice.users == once.users
  {
    var once := ForcePasswordReset(users, session, request, now, true, false);
    var email := SessionEmail(session).value;
    var id := request.value.userId.value;
    var f := SetForceReset(request.value.forceReset.value, now);
    FlagWriteKeepsLookups(users, once.users, id, email);
    var twice := ForcePasswordReset(once.users, session, request, now, true, false);
    assert twice.users == UpdateWhereId(once.users, id, f);
    forall j | 0 <= j < |users| ensures twice.users[j] == once.users[j] {
      if users[j].id == id {
        assert once.users[j] == f(users[j]);
        assert twice.users[j] == f(f(users[j]));
      }
    }
  }

  /** The caller's role in the session token plays no part: two sessions with
      the same email and different token roles get the same answer. */
  lemma ForceResetIgnoresTokenRole(users: Table, su: SessionUser, role: Option<Role>,
                                   request: Option<ResetRequest>, now: int, columnExists: bool, fails: bool)
    ensures ForcePasswordReset(users, Some(Session(Some(su))), request, now, columnExists, fails)
         == ForcePasswordReset(users, Some(Session(Some(su.(role := role)))), request, now, columnExists, fails)
  {
  }

  /** A user demoted in the store loses access at once, even though the token
      still says admin. */
  lemma DemotedAdminRefused(users: Table, su: SessionUser, request: Option<ResetRequest>, now: int)
    requires Present(su.email) && su.role == Some(Admin)
    requires Find(users, EmailFolded(su.email.value)).Some?
    requires users[Find(users, EmailFolded(su.email.value)).value].role == User
    ensures ForcePasswordReset(users, Some(Session(Some(su))), request, now, true, false).reply.status == 403
  {
  }

  /** The target's role is not checked: an admin may flag themselves. */
  lemma AdminMayTargetSelf(users: Table, su: SessionUser, flag: bool, now: int)
    requires IdsAscending(users)
    requires Present(su.email) && CallerIsAdmin(users, su.email.value)
    requires users[Find(users, EmailFolded(su.email.value)).value].id != 0
    ensures var k := Find(users, EmailFolded(su.email.value)).value;
            var r := ForcePasswordReset(users, Some(Session(Some(su))),
                                        Some(ResetRequest(Some(users[k].id), Some(flag))), now, true, false);
            r.reply.status == 200 && r.users[k].forcePasswordReset == flag
  {
    var k := Find(users, EmailFolded(su.email.value)).value;
    FindIdUnique(users, users[k].id, k);
  }

  // -----------------------------------------------------------------------
  // PUT /api/auth/change-password

  datatype PasswordRequest = PasswordRequest(currentPassword: Option<string>, newPassword: Option<string>)

  /** Compared with `.length`, so counted in UTF-16 units. */
  const MinPasswordLength := 6

  function SetPassword(hash: string, now: int): UserRecord -> UserRecord {
    (u: UserRecord) => u.(passwordHash := hash, updatedAt := now)
  }

  /** `fails` is an error thrown by the first database or bcrypt call, the
      lookup that follows the checks on the body. */
  function ChangePassword(users: Table, session: Option<Session>, request: Option<PasswordRequest>,
                          matches: (string, string) -> bool, hash: string, now: int, fails: bool)
    : (r: Outcome)
    ensures r.reply.status in {200, 400, 401, 404, 500}
    ensures r.reply.status == 401 <==> SessionEmail(session).None?
    // an unreadable body, or a thrown error once the body passes its checks
    ensures r.reply.status == 500 <==>
      && SessionEmail(session).Some?
      && (|| request.None?
          || (&& Present(request.value.currentPassword) && Present(request.value.newPassword)
              && Utf16Length(request.value.newPassword.value) >= MinPasswordLength && fails))
    ensures r.reply.status == 404 <==>
      && SessionEmail(session).Some? && request.Some? && !fails
      && Present(request.value.currentPassword) && Present(request.value.newPassword)
      && Utf16Length(request.value.newPassword.value) >= MinPasswordLength
      && Find(users, EmailFolded(SessionEmail(session).value)).None?
    // a missing field, a short new password, a wrong current one or an unchanged one
    ensures r.reply.status == 400 <==>
      && SessionEmail(session).Some? && request.Some?
      && (|| !Present(request.value.currentPassword) || !Present(request.value.newPassword)
          || Utf16Length(request.value.newPassword.value) < MinPasswordLength
          || (&& !fails
              && var k := Find(users, EmailFolded(SessionEmail(session).value));
              && k.Some?
              && (|| !matches(request.value.currentPassword.value, users[k.value].passwordHash)
                  || matches(request.value.newPassword.value, users[k.value].passwordHash))))
    ensures r.reply.status != 200 ==> r.users == users && r.reply.body.Failure?
    // success: a long enough new password, the right current one, a different
    // new one; then only that row's hash and timestamp change
    ensures r.reply.status == 200 ==>
      && !fails && request.Some? && Present(request.value.currentPassword) && Present(request.value.newPassword)
      && Utf16Length(request.value.newPassword.value) >= MinPasswordLength
      && var k := Find(users, EmailFolded(SessionEmail(session).value));
      && k.Some?
      && matches(request.value.currentPassword.value, users[k.value].passwordHash)
      && !matches(request.value.newPassword.value, users[k.value].passwordHash)
      && r.users == UpdateWhereId(users, users[k.value].id, SetPassword(hash, now))
  {
    match SessionEmail(session)
    case None => Outcome(Reply(401, Failure("Unauthorized")), users)
    case Some(email) =>
      if request.None? then Outcome(Reply(500, Failure("Internal server error")), users)
      else if !Present(request.value.currentPassword) || !Present(request.value.newPassword) then
        Outcome(Reply(400, Failure("Current password and new password are required")), users)
      else
        var current := request.value.currentPassword.value;
        var next := request.value.newPassword.value;
        if Utf16Length(next) < MinPasswordLength then
          Outcome(Reply(400, Failure("New password must be at least 6 characters long")), users)
        else if fails then Outcome(Reply(500, Failure("Internal server error")), users)
        else match Find(users, EmailFolded(email))
          case None => Outcome(Reply(404, Failure("User not found")), users)
          case Some(k) =>
            if !matches(current, users[k].passwordHash) then
              Outcome(Reply(400, Failure("Current password is incorrect")), users)
            else if matches(next, users[k].passwordHash) then
              Outcome(Reply(400, Failure("New password must be different from your current password")), users)
            else Outcome(Reply(200, Message("Password updated successfully")),
                         UpdateWhereId(users, users[k].id, SetPassword(hash, now)))
  }

  /** With distinct ids exactly one row changes, in its hash and timestamp only. */
  lemma ChangePasswordTouchesOneRow(users: Table, session: Option<Session>, request: Option<PasswordRequest>,
                                    matches: (string, string) -> bool, hash: string, now: int, fails: bool)
    requires IdsAscending(users)
    requires ChangePassword(users, session, request, matches, hash, now, fails).reply.status == 200
    ensures var k := Find(users, EmailFolded(SessionEmail(session).value)).value;
            var r := ChangePassword(users, session, request, matches, hash, now, fails);
            && r.users == users[k := users[k].(passwordHash := hash, updatedAt := now)]
  {
    var k := Find(users, EmailFolded(SessionEmail(session).value)).value;
    var r := ChangePassword(users, session, request, matches, hash, now, fails);
    forall j | 0 <= j < |users| ensures r.users[j] == users[k := users[k].(passwordHash := hash, updatedAt := now)][j] {
      if j < k { assert users[j].id < users[k].id; } else if j > k { assert users[k].id < users[j].id; }
    }
  }

  /** After a successful change the new password logs in and the old one no
      longer does (for a row whose ban is not in force, and a hash that
      accepts exactly the new password). */
  lemma ChangedPasswordLogsIn(users: Table, session: Option<Session>, current: string, next: string,
                              matches: (string, string) -> bool, hash: string, now: int, fails: bool)
    requires IdsAscending(users)
    requires ChangePassword(users, session, Some(PasswordRequest(Some(current), Some(next))),
                            matches, hash, now, fails).reply.status == 200
    requires matches(next, hash) && !matches(current, hash)
    requires EvaluateUser(users[Find(users, EmailFolded(SessionEmail(session).value)).value], now) != InForce
    ensures var email := SessionEmail(session).value;
            var after := ChangePassword(users, session, Some(PasswordRequest(Some(current), Some(next))),
                                        matches, hash, now, fails).users;
            && Authorize(after, Credentials(Some(email), Some(next)), now, matches, false).user.Some?
            && Authorize(after, Credentials(Some(email), Some(current)), now, matches, false).user.None?
  {
    var email := SessionEmail(session).value;
    var k := Find(users, EmailFolded(email)).value;
    var request := Some(PasswordRequest(Some(current), Some(next)));
    ChangePasswordTouchesOneRow(users, session, request, matches, hash, now, fails);
    var after := ChangePassword(users, session, request, matches, hash, now, fails).users;
    FindAfterUpdate(users, k, users[k].(passwordHash := hash, updatedAt := now), EmailFolded(email));
    assert after[k].passwordHash == hash;
    assert EvaluateUser(after[k], now) == EvaluateUser(users[k], now);
  }

  // -----------------------------------------------------------------------
  // POST /api/auth/register

  datatype RegisterRequest = RegisterRequest(email: Option<string>, password: Option<string>, name: Option<string>)

  /** The twelve categories the route inserts for a new user. They differ
      from `createDefaultCategories`: "Freelancing" rather than "Freelance",
      plus "Investment Returns", "Gift" and "Refund". */
  const RegisterDefaults: seq<CategoryDef> := [
    CategoryDef("Food", Expense, 600),
    CategoryDef("Entertainment", Expense, 200),
    CategoryDef("General Expense", Expense, 300),
    CategoryDef("Groceries", Expense, 500),
    CategoryDef("Utilities", Expense, 200),
    CategoryDef("Transportation", Expense, 150),
    CategoryDef("Healthcare", Expense, 200),
    CategoryDef("Salary", Income, 0),
    CategoryDef("Freelancing", Income, 0),
    CategoryDef("Investment Returns", Income, 0),
    CategoryDef("Gift", Other, 0),
    CategoryDef("Refund", Other, 0)
  ]

  lemma RegisterDefaultsDistinct()
    ensures |RegisterDefaults| == 12 && DistinctNames(RegisterDefaults)
  {
    AllDistinctSound(RegisterDefaults, 0);
  }

  /** Seven expense rows with the same limits as the seeding, then three
      income and two other rows with limit 0. */
  lemma RegisterDefaultsLimits()
    ensures LimitsOf(RegisterDefaults, Expense, 0) == [600, 200, 300, 500, 200, 150, 200]
    ensures LimitsOf(RegisterDefaults, Income, 0) == [0, 0, 0]
    ensures LimitsOf(RegisterDefaults, Other, 0) == [0, 0]
  {
  }

  /** The largest id in the table, or 0. */
  function MaxId(users: Table): (m: int)
    ensures forall i :: 0 <= i < |users| ==> users[i].id <= m
    decreases |users|
  {
    if users == [] then 0
    else var rest := MaxId(users[1..]);
      if users[0].id > rest then users[0].id else rest
  }

  /** SQLite's AUTOINCREMENT: one more than the larger of the counter and the
      largest id present. */
  function NextUserId(db: Db): (id: int)
    ensures id > db.userSeq
    ensures forall i :: 0 <= i < |db.users| ==> db.users[i].id < id
  {
    (if db.userSeq > MaxId(db.users) then db.userSeq else MaxId(db.users)) + 1
  }

  /** How the route looks for an existing account before inserting. */
  datatype DuplicateCheck =
    | ExactEmail    // SELECT id FROM users WHERE email = ?  (as written)
    | FoldedEmail   // WHERE LOWER(email) = LOWER(?), as the login lookup

  function DuplicateKey(check: DuplicateCheck, email: string): Key {
    match check
    case ExactEmail => EmailExact(email)
    case FoldedEmail => EmailFolded(email)
  }

  datatype Registered = Registered(reply: Reply<AccountBody>, db: Db)

  predicate RegisterInputOk(request: Option<RegisterRequest>) {
    && request.Some?
    && Present(request.value.email) && Present(request.value.password) && Present(request.value.name)
    && Utf16Length(request.value.password.value) >= MinPasswordLength
  }

  /** The route, with the duplicate lookup as a parameter. Either lookup
      finds every row `UNIQUE(email)` would clash with, since that
      constraint compares exactly (`DuplicateCheckCoversUnique`), so the user
      insert is never refused. The category inserts follow it without a
      transaction, so a refused category insert leaves the user and the
      categories before it in place and answers 500. */
  function RegisterWith(check: DuplicateCheck, db: Db, request: Option<RegisterRequest>,
                        hash: string, now: int, fails: bool): (r: Registered)
    ensures r.reply.status in {201, 400, 409, 500}
    ensures r.reply.status == 400 <==>
      request.Some? && !(RegisterInputOk(request))
    ensures r.reply.status == 409 <==>
      RegisterInputOk(request) && !fails && Find(db.users, DuplicateKey(check, request.value.email.value)).Some?
    // an unreadable body, or a thrown error once the body passes its checks
    ensures request.None? || (RegisterInputOk(request) && fails) ==> r.reply.status == 500
    ensures r.reply.status in {400, 409} || request.None? || fails ==> r.db == db
    ensures r.reply.status == 201 ==>
      && RegisterInputOk(request) && !fails
      && var id := NextUserId(db);
      && r.reply.body == Created(id)
      && r.db.users == db.users + [NewUser(id, request.value.email.value, hash, request.value.name.value, User, now)]
      && r.db.userSeq == id
      && r.db.transactions == db.transactions
  {
    if request.None? then Registered(Reply(500, Failure("Internal server error")), db)
    else if !Present(request.value.email) || !Present(request.value.password) || !Present(request.value.name) then
      Registered(Reply(400, Failure("Missing required fields")), db)
    else if Utf16Length(request.value.password.value) < MinPasswordLength then
      Registered(Reply(400, Failure("Password must be at least 6 characters long")), db)
    else
      var email := request.value.email.value;
      if fails then Registered(Reply(500, Failure("Internal server error")), db)
      else if Find(db.users, DuplicateKey(check, email)).Some? then
        Registered(Reply(409, Failure("User with this email already exists")), db)
      else
        var id := NextUserId(db);
        var db1 := db.(users := db.users + [NewUser(id, email, hash, request.value.name.value, User, now)],
                       userSeq := id);
        var (db2, ok) := InsertCategories(db1, id, RegisterDefaults);
        if ok then Registered(Reply(201, Created(id)), db2)
        else Registered(Reply(500, Failure("Internal server error")), db2)
  }

  /** The route as written: the duplicate check compares emails exactly. */
  function Register(db: Db, request: Option<RegisterRequest>, hash: string, now: int, fails: bool)
    : (r: Registered)
    ensures r.reply.status == 409 <==>
      RegisterInputOk(request) && !fails && Find(db.users, EmailExact(request.value.email.value)).Some?
  {
    RegisterWith(ExactEmail, db, request, hash, now, fails)
  }

  /** Appending a row keeps every id that was there. */
  lemma HasUserAppend(users: Table, u: UserRecord, x: int)
    requires HasUser(users, x)
    ensures HasUser(users + [u], x)
  {
    var i :| 0 <= i < |users| && users[i].id == x;
    assert (users + [u])[i].id == x;
  }

  /** The new row keeps the users' constraints, and the new id owns nothing. */
  lemma InsertUserKeepsValid(db: Db, u: UserRecord)
    requires Valid(db)
    requires u.id == NextUserId(db) && u.bannedBy.None?
    requires Find(db.users, EmailExact(u.email)).None?
    ensures var db1 := db.(users := db.users + [u], userSeq := u.id);
            && Valid(db1)
            && Find(db1.users, IdIs(u.id)).Some?
            && forall c :: c in db1.categories ==> db1.categories[c].userId != u.id
  {
    var users' := db.users + [u];
    assert users'[|db.users|] == u;
    forall x | HasUser(db.users, x) ensures HasUser(users', x) { HasUserAppend(db.users, u, x); }
    forall c | c in db.categories ensures db.categories[c].userId != u.id {
      var i :| 0 <= i < |db.users| && db.users[i].id == db.categories[c].userId;
    }
    assert Matches(users'[|db.users|], IdIs(u.id));
  }

  /** Valid input with no account under the duplicate key registers when
      nothing throws: the new row gets the next id and role `user`, its
      twelve categories land at the next category ids in order, and every
      constraint still holds. */
  lemma RegisterSucceeds(check: DuplicateCheck, db: Db, request: Option<RegisterRequest>, hash: string, now: int)
    requires Valid(db)
    requires RegisterInputOk(request)
    requires Find(db.users, DuplicateKey(check, request.value.email.value)).None?
    ensures var r := RegisterWith(check, db, request, hash, now, false);
            && r.reply.status == 201
            && Valid(r.db)
            && forall i :: 0 <= i < |RegisterDefaults| ==>
                 Placed(r.db.categories, db.categorySeq, NextUserId(db), RegisterDefaults, i)
  {
    var id := NextUserId(db);
    var u := NewUser(id, request.value.email.value, hash, request.value.name.value, User, now);
    var db1 := db.(users := db.users + [u], userSeq := id);
    DuplicateCheckCoversUnique(check, db.users, request.value.email.value);
    InsertUserKeepsValid(db, u);
    RegisterDefaultsDistinct();
    InsertCategoriesSucceed(db1, id, RegisterDefaults);
    InsertCategoriesKeepsValid(db1, id, RegisterDefaults);
    InsertCategoriesPlacement(db1, id, RegisterDefaults);
  }

  /** A case variant of a folded lookup key matches the same rows. */
  lemma FoldedExactMiss(users: Table, email: string)
    requires Find(users, EmailFolded(email)).None?
    ensures Find(users, EmailExact(email)).None?
  {
  }

  /** No row that either duplicate lookup misses has exactly the same email,
      so `UNIQUE(email)` never refuses the insert that follows. */
  lemma DuplicateCheckCoversUnique(check: DuplicateCheck, users: Table, email: string)
    ensures Find(users, DuplicateKey(check, email)).None? ==> Find(users, EmailExact(email)).None?
  {
    if check == FoldedEmail && Find(users, EmailFolded(email)).None? {
      FoldedExactMiss(users, email);
    }
  }

  // The shadowing that the exact check allows, and the folded check that
  // prevents it.

  /** No two rows have emails equal up to ASCII case. */
  ghost predicate EmailsFoldedUnique(users: Table) {
    forall i, j :: 0 <= i < j < |users| ==> Lower(users[i].email) != Lower(users[j].email)
  }

  /** `A@x` is not `a@x`, but folds to it. */
  lemma CaseVariantOfFirst(first: UserRecord, rest: Table)
    requires first.email == "a@x"
    ensures !Matches(first, EmailExact("A@x"))
    ensures Find([first] + rest, EmailFolded("A@x")) == Some(0)
  {
    assert Lower("A@x") == "a@x" by {
      assert LowerChar('A') == 'a';
    }
    assert Lower("a@x") == "a@x";
    assert ([first] + rest)[0] == first;
  }

  /** As written: an account `a@x` exists; registering `A@x` succeeds, and the
      new row is unreachable by login, whose lookup lands on the old row. */
  lemma RegisterShadowsCaseVariant(db: Db, first: UserRecord, hash: string, now: int)
    requires Valid(db)
    requires db.users == [first] && first.email == "a@x"
    ensures var r := Register(db, Some(RegisterRequest(Some("A@x"), Some("secret"), Some("Anna"))), hash, now, false);
            && r.reply.status == 201
            && |r.db.users| == 2
            && Find(r.db.users, EmailFolded("A@x")) == Some(0)
            && r.db.users[1].email == "A@x"
  {
    var request := Some(RegisterRequest(Some("A@x"), Some("secret"), Some("Anna")));
    var u := NewUser(NextUserId(db), "A@x", hash, "Anna", User, now);
    CaseVariantOfFirst(first, [u]);
    assert Find(db.users, EmailExact("A@x")).None?;
    RegisterSucceeds(ExactEmail, db, request, hash, now);
    var r := Register(db, request, hash, now, false);
    assert r.db.users == [first] + [u];
  }

  /** Corrected: with the folded duplicate check, folded uniqueness is kept
      by every registration. */
  lemma RegisterFoldedKeepsFoldedUnique(db: Db, request: Option<RegisterRequest>, hash: string, now: int,
                                        fails: bool)
    requires EmailsFoldedUnique(db.users)
    ensures EmailsFoldedUnique(RegisterWith(FoldedEmail, db, request, hash, now, fails).db.users)
  {
    var r := RegisterWith(FoldedEmail, db, request, hash, now, fails);
    if r.db.users != db.users {
      var e := request.value.email.value;
      var users' := r.db.users;
      assert users'[..|db.users|] == db.users;
      forall i | 0 <= i < |db.users| ensures Lower(users'[i].email) != Lower(e) {
        assert !Matches(db.users[i], EmailFolded(e));
      }
    }
  }

  /** Under folded uniqueness every row is the one login finds for its own
      email, so no account is shadowed. */
  lemma FoldedUniqueLoginReachesEveryRow(users: Table, i: nat)
    requires EmailsFoldedUnique(users)
    requires i < |users|
    ensures Find(users, EmailFolded(users[i].email)) == Some(i)
  {
  }
}

=== FILE: api_logger.dfy ===
/** lib/apiLogger.ts: the in-memory request log, newest first and capped at
    100 entries, and the statistics computed over it.

    A plain JavaScript object used as a counter (`byMethod`, `byPath`,
    `byStatus`) is a list of buckets in key-insertion order; none of the
    keys involved is an integer-like string, so insertion order is the order
    JavaScript enumerates them in. Durations are whole milliseconds. */
module ApiLogger {
  import opened Common

  datatype LogEntry = LogEntry(
    id: string,
    timestamp: string,
    verb: string,
    path: string,
    status: Option<int>,
    duration: Option<int>,
    error: Option<string>)

  const MaxLogs: nat := 100

  // -----------------------------------------------------------------------
  // log, getLogs, clear

  /** `unshift`, then keep the first 100. */
  function Log(logs: seq<LogEntry>, entry: LogEntry): (r: seq<LogEntry>)
    ensures |r| == if |logs| + 1 < MaxLogs then |logs| + 1 else MaxLogs
    ensures r[0] == entry
    ensures forall i :: 1 <= i < |r| ==> r[i] == logs[i - 1]
  {
    Take([entry] + logs, MaxLogs)
  }

  /** Logging a sequence of entries one after another from `logs`. */
  function LogAll(logs: seq<LogEntry>, entries: seq<LogEntry>): seq<LogEntry>
    decreases |entries|
  {
    if entries == [] then logs else LogAll(Log(logs, entries[0]), entries[1..])
  }

  function Reverse<T>(s: seq<T>): (r: seq<T>)
    ensures |r| == |s| && forall i :: 0 <= i < |s| ==> r[i] == s[|s| - 1 - i]
    decreases |s|
  {
    if s == [] then [] else Reverse(s[1..]) + [s[0]]
  }

  /** The log always holds the most recent entries, newest first: after any
      run of calls it is the reversed history, cut to 100. */
  lemma {:induction false} LogKeepsNewest(logs: seq<LogEntry>, entries: seq<LogEntry>)
    requires |logs| <= MaxLogs
    ensures LogAll(logs, entries) == Take(Reverse(entries) + logs, MaxLogs)
    decreases |entries|
  {
    if entries != [] {
      var e := entries[0];
      var l1 := Log(logs, e);
      LogKeepsNewest(l1, entries[1..]);
      var lhs := Take(Reverse(entries[1..]) + l1, MaxLogs);
      var rhs := Take(Reverse(entries) + logs, MaxLogs);
      assert Reverse(entries) == Reverse(entries[1..]) + [e];
      assert |lhs| == |rhs|;
      forall i | 0 <= i < |lhs| ensures lhs[i] == rhs[i] {
        var n := |entries| - 1;
        if i < n {
          assert lhs[i] == Reverse(entries[1..])[i];
        } else {
          assert lhs[i] == l1[i - n];
          if i == n { assert rhs[i] == e; } else { assert rhs[i] == logs[i - n - 1]; }
        }
      }
    }
  }

  /** From an empty log: the last 100 entries, newest first. */
  lemma LogFromEmpty(entries: seq<LogEntry>)
    ensures LogAll([], entries) == Take(Reverse(entries), MaxLogs)
  {
    LogKeepsNewest([], entries);
    assert Reverse(entries) + [] == Reverse(entries);
  }

  /** `limit ? logs.slice(0, limit) : logs`. An absent limit and 0 are falsy;
      a negative limit counts from the end, as `slice` does. */
  function GetLogs(logs: seq<LogEntry>, limit: Option<int>): (r: seq<LogEntry>)
    ensures !PresentInt(limit) ==> r == logs
    ensures PresentInt(limit) && limit.value > 0 ==>
      |r| == (if limit.value < |logs| then limit.value else |logs|)
    ensures PresentInt(limit) && limit.value < 0 ==>
      |r| == (if |logs| + limit.value > 0 then |logs| + limit.value else 0)
    ensures |r| <= |logs| && forall i :: 0 <= i < |r| ==> r[i] == logs[i]
  {
    if !PresentInt(limit) then logs
    else if limit.value > 0 then Take(logs, limit.value)
    else Take(logs, if |logs| + limit.value > 0 then |logs| + limit.value else 0)
  }

  function Clear(): (r: seq<LogEntry>)
    ensures |r| == 0
  {
    []
  }

  // -----------------------------------------------------------------------
  // Counters keyed by string

  datatype Bucket = Bucket(key: string, count: nat)

  /** Where `key` sits among the buckets, if anywhere. */
  function KeyIndex(bs: seq<Bucket>, key: string): (r: Option<nat>)
    ensures r.Some? ==> r.value < |bs| && bs[r.value].key == key
    ensures r.None? ==> forall i :: 0 <= i < |bs| ==> bs[i].key != key
    decreases |bs|
  {
    if bs == [] then None
    else if bs[|bs| - 1].key == key then Some(|bs| - 1)
    else KeyIndex(bs[..|bs| - 1], key)
  }

  /** `counter[key]`, with a missing key reading as 0. */
  function CountOf(bs: seq<Bucket>, key: string): nat {
    match KeyIndex(bs, key)
    case None => 0
    case Some(i) => bs[i].count
  }

  ghost predicate DistinctKeys(bs: seq<Bucket>) {
    forall i, j :: 0 <= i < j < |bs| ==> bs[i].key != bs[j].key
  }

  /** `counter[key] = (counter[key] || 0) + 1`: a new key goes to the end. */
  function Bump(bs: seq<Bucket>, key: string): (r: seq<Bucket>) {
    match KeyIndex(bs, key)
    case None => bs + [Bucket(key, 1)]
    case Some(i) => bs[i := Bucket(key, bs[i].count + 1)]
  }

  function SumCounts(bs: seq<Bucket>): nat
    decreases |bs|
  {
    if bs == [] then 0 else SumCounts(bs[..|bs| - 1]) + bs[|bs| - 1].count
  }

  lemma {:induction false} SumCountsUpdate(bs: seq<Bucket>, i: nat, b: Bucket)
    requires i < |bs|
    ensures SumCounts(bs[i := b]) == SumCounts(bs) - bs[i].count + b.count
    decreases |bs|
  {
    if i < |bs| - 1 {
      assert bs[i := b][..|bs| - 1] == bs[..|bs| - 1][i := b];
      SumCountsUpdate(bs[..|bs| - 1], i, b);
    } else {
      assert bs[i := b][..|bs| - 1] == bs[..|bs| - 1];
    }
  }

  /** One bump adds one in total, adds one to `key`'s count, leaves the other
      keys' counts alone, and keeps keys distinct. */
  lemma BumpCounts(bs: seq<Bucket>, key: string)
    requires DistinctKeys(bs)
    ensures DistinctKeys(Bump(bs, key))
    ensures SumCounts(Bump(bs, key)) == SumCounts(bs) + 1
    ensures CountOf(Bump(bs, key), key) == CountOf(bs, key) + 1
    ensures forall k :: k != key ==> CountOf(Bump(bs, key), k) == CountOf(bs, k)
  {
    var r := Bump(bs, key);
    match KeyIndex(bs, key)
    case None =>
      assert r[..|r| - 1] == bs;
      forall k | k != key ensures CountOf(r, k) == CountOf(bs, k) {
        assert KeyIndex(r, k) == KeyIndex(bs, k);
      }
    case Some(i) =>
      SumCountsUpdate(bs, i, Bucket(key, bs[i].count + 1));
      forall k ensures KeyIndex(r, k) == KeyIndex(bs, k) {
        KeyIndexSameKeys(bs, r, k);
      }
  }

  /** Lookups depend only on the keys. */
  lemma {:induction false} KeyIndexSameKeys(a: seq<Bucket>, b: seq<Bucket>, key: string)
    requires |a| == |b| && forall i :: 0 <= i < |a| ==> a[i].key == b[i].key
    ensures KeyIndex(a, key) == KeyIndex(b, key)
    decreases |a|
  {
    if a != [] {
      KeyIndexSameKeys(a[..|a| - 1], b[..|b| - 1], key);
    }
  }

  /** How often `key` occurs. */
  function Occurrences(keys: seq<string>, key: string): nat
    decreases |keys|
  {
    if keys == [] then 0
    else Occurrences(keys[..|keys| - 1], key) + (if keys[|keys| - 1] == key then 1 else 0)
  }

  /** The counter after counting `keys` in order. */
  function Tally(keys: seq<string>): seq<Bucket>
    decreases |keys|
  {
    if keys == [] then [] else Bump(Tally(keys[..|keys| - 1]), keys[|keys| - 1])
  }

  lemma TallyAppend(keys: seq<string>, key: string)
    ensures Tally(keys + [key]) == Bump(Tally(keys), key)
  {
    assert (keys + [key])[..|keys|] == keys;
  }

  /** The counter counts: every key's count is its number of occurrences,
      keys are distinct, and the counts add up to the number of keys. */
  lemma {:induction false} TallyCounts(keys: seq<string>)
    ensures DistinctKeys(Tally(keys))
    ensures SumCounts(Tally(keys)) == |keys|
    ensures forall k :: CountOf(Tally(keys), k) == Occurrences(keys, k)
    decreases |keys|
  {
    if keys != [] {
      var init := keys[..|keys| - 1];
      TallyCounts(init);
      BumpCounts(Tally(init), keys[|keys| - 1]);
    }
  }

  // -----------------------------------------------------------------------
  // getStats

  /** `log.error || (log.status && log.status >= 400)`. */
  predicate IsError(e: LogEntry) {
    Present(e.error) || (PresentInt(e.status) && e.status.value >= 400)
  }

  /** `${Math.floor(status / 100)}xx`; for the positive divisor 100 Dafny's
      division is the floor. */
  function StatusGroup(status: int): string {
    IntToDecimal(status / 100) + "xx"
  }

  function Methods(logs: seq<LogEntry>): seq<string>
    decreases |logs|
  {
    if logs == [] then [] else Methods(logs[..|logs| - 1]) + [logs[|logs| - 1].verb]
  }

  function Paths(logs: seq<LogEntry>): seq<string>
    decreases |logs|
  {
    if logs == [] then [] else Paths(logs[..|logs| - 1]) + [logs[|logs| - 1].path]
  }

  /** The group labels of the entries with a truthy status. */
  function StatusGroups(logs: seq<LogEntry>): seq<string>
    decreases |logs|
  {
    if logs == [] then []
    else
      var e := logs[|logs| - 1];
      StatusGroups(logs[..|logs| - 1]) + (if PresentInt(e.status) then [StatusGroup(e.status.value)] else [])
  }

  function CountErrors(logs: seq<LogEntry>): nat
    decreases |logs|
  {
    if logs == [] then 0 else CountErrors(logs[..|logs| - 1]) + (if IsError(logs[|logs| - 1]) then 1 else 0)
  }

  /** Sum of the truthy durations. */
  function DurationSum(logs: seq<LogEntry>): int
    decreases |logs|
  {
    if logs == [] then 0
    else
      var e := logs[|logs| - 1];
      DurationSum(logs[..|logs| - 1]) + (if PresentInt(e.duration) then e.duration.value else 0)
  }

  /** Number of the truthy durations. */
  function DurationCount(logs: seq<LogEntry>): nat
    decreases |logs|
  {
    if logs == [] then 0
    else DurationCount(logs[..|logs| - 1]) + (if PresentInt(logs[|logs| - 1].duration) then 1 else 0)
  }

  /** `Math.round(sum / count)`: the nearest integer, halves rounding up. */
  function RoundedMean(sum: int, count: nat): (avg: int)
    requires count > 0
    ensures 2 * count * avg - count <= 2 * sum < 2 * count * avg + count
  {
    var d := 2 * count;
    var n := 2 * sum + count;
    var q := n / d;
    assert d * q <= n < d * q + d;
    q
  }

  datatype Stats = Stats(
    totalCalls: nat,
    byMethod: seq<Bucket>,
    byPath: seq<Bucket>,
    byStatus: seq<Bucket>,
    errors: nat,
    avgDuration: int)

  /** Each counted quantity of a one-longer prefix is the shorter prefix's
      plus the contribution of the next entry. */
  lemma PrefixStep(logs: seq<LogEntry>, i: nat)
    requires i < |logs|
    ensures var e := logs[i];
            && Methods(logs[..i + 1]) == Methods(logs[..i]) + [e.verb]
            && Paths(logs[..i + 1]) == Paths(logs[..i]) + [e.path]
            && StatusGroups(logs[..i + 1])
               == StatusGroups(logs[..i]) + (if PresentInt(e.status) then [StatusGroup(e.status.value)] else [])
            && CountErrors(logs[..i + 1]) == CountErrors(logs[..i]) + (if IsError(e) then 1 else 0)
            && DurationSum(logs[..i + 1]) == DurationSum(logs[..i]) + (if PresentInt(e.duration) then e.duration.value else 0)
            && DurationCount(logs[..i + 1]) == DurationCount(logs[..i]) + (if PresentInt(e.duration) then 1 else 0)
  {
    assert logs[..i + 1][..i] == logs[..i];
  }

  /** One pass over the log, as the `forEach` does. */
  method GetStats(logs: seq<LogEntry>) returns (s: Stats)
    ensures s.totalCalls == |logs|
    ensures s.byMethod == Tally(Methods(logs)) && s.byPath == Tally(Paths(logs))
    ensures s.byStatus == Tally(StatusGroups(logs))
    ensures s.errors == CountErrors(logs)
    ensures DurationCount(logs) == 0 ==> s.avgDuration == 0
    ensures DurationCount(logs) > 0 ==>
      var (sum, count) := (DurationSum(logs), DurationCount(logs));
      2 * count * s.avgDuration - count <= 2 * sum < 2 * count * s.avgDuration + count
  {
    var byMethod: seq<Bucket> := [];
    var byPath: seq<Bucket> := [];
    var byStatus: seq<Bucket> := [];
    var errors := 0;
    var total := 0;
    var count := 0;
    for i := 0 to |logs|
      invariant byMethod == Tally(Methods(logs[..i])) && byPath == Tally(Paths(logs[..i]))
      invariant byStatus == Tally(StatusGroups(logs[..i]))
      invariant errors == CountErrors(logs[..i])
      invariant total == DurationSum(logs[..i]) && count == DurationCount(logs[..i])
    {
      var e := logs[i];
      PrefixStep(logs, i);
      TallyAppend(Methods(logs[..i]), e.verb);
      TallyAppend(Paths(logs[..i]), e.path);
      byMethod := Bump(byMethod, e.verb);
      byPath := Bump(byPath, e.path);
      if PresentInt(e.status) {
        TallyAppend(StatusGroups(logs[..i]), StatusGroup(e.status.value));
        byStatus := Bump(byStatus, StatusGroup(e.status.value));
      } else {
        assert StatusGroups(logs[..i]) + [] == StatusGroups(logs[..i]);
      }
      if IsError(e) {
        errors := errors + 1;
      }
      if PresentInt(e.duration) {
        total := total + e.duration.value;
        count := count + 1;
      }
    }
    assert logs[..|logs|] == logs;
    var avg := if count > 0 then RoundedMean(total, count) else 0;
    s := Stats(|logs|, byMethod, byPath, byStatus, errors, avg);
  }

  lemma {:induction false} MethodsLength(logs: seq<LogEntry>)
    ensures |Methods(logs)| == |logs|
    ensures forall k :: Occurrences(Methods(logs), k) == |set i | 0 <= i < |logs| && logs[i].verb == k|
    decreases |logs|
  {
    if logs != [] {
      var init := logs[..|logs| - 1];
      MethodsLength(init);
      forall k ensures Occurrences(Methods(logs), k) == |set i | 0 <= i < |logs| && logs[i].verb == k| {
        var before := set i | 0 <= i < |init| && init[i].verb == k;
        var after := set i | 0 <= i < |logs| && logs[i].verb == k;
        assert Methods(logs)[..|logs| - 1] == Methods(init);
        if logs[|logs| - 1].verb == k {
          assert after == before + {|logs| - 1};
        } else {
          assert after == before;
        }
      }
    }
  }

  /** The method counts add up to `totalCalls`, and each is the number of
      entries with that method. */
  lemma MethodCountsAddUp(logs: seq<LogEntry>)
    ensures SumCounts(Tally(Methods(logs))) == |logs|
    ensures forall k :: CountOf(Tally(Methods(logs)), k) == |set i | 0 <= i < |logs| && logs[i].verb == k|
  {
    MethodsLength(logs);
    TallyCounts(Methods(logs));
  }

  /** Logging one more entry below the cap raises the error count by one
      exactly when the entry is an error. */
  lemma {:induction false} ErrorsOfPrepend(e: LogEntry, logs: seq<LogEntry>)
    ensures CountErrors([e] + logs) == CountErrors(logs) + (if IsError(e) then 1 else 0)
    decreases |logs|
  {
    if logs != [] {
      var init := logs[..|logs| - 1];
      assert ([e] + logs)[..|logs|] == [e] + init;
      ErrorsOfPrepend(e, init);
    }
  }

  lemma LogCountsErrors(logs: seq<LogEntry>, e: LogEntry)
    requires |logs| < MaxLogs
    ensures CountErrors(Log(logs, e)) == CountErrors(logs) + (if IsError(e) then 1 else 0)
  {
    assert Log(logs, e) == [e] + logs;
    ErrorsOfPrepend(e, logs);
  }

  /** Status codes group by hundreds: 404 and 410 both count under "4xx". */
  lemma StatusGroupExamples()
    ensures StatusGroup(404) == StatusGroup(410)
    ensures StatusGroup(200) != StatusGroup(500)
  {
    assert 404 / 100 == 4 && 410 / 100 == 4;
    assert 200 / 100 == 2 && 500 / 100 == 5;
    StatusGroupIff(200, 500);
  }

  /** Two statuses share a group exactly when their hundreds agree. */
  lemma StatusGroupIff(a: int, b: int)
    ensures StatusGroup(a) == StatusGroup(b) <==> a / 100 == b / 100
  {
    if StatusGroup(a) == StatusGroup(b) {
      var x := IntToDecimal(a / 100);
      var y := IntToDecimal(b / 100);
      assert x == (x + "xx")[..|x|];
      assert |x| == |y|;
      assert x == (y + "xx")[..|y|];
      IntToDecimalInjective(a / 100, b / 100);
    }
  }
}

=== FILE: auth.dfy ===
/** lib/auth.ts: the credentials `authorize` callback (login gate with ban
    check and auto-unban) and the `signIn`, `jwt` and `session` callbacks.

    bcrypt is abstract: `matches(password, hash)` stands for
    `bcrypt.compare`. A `true` value of `fails` stands for the database
    raising an error inside the `try` block. */
module Auth {
  import opened Common
  import opened Users
  import opened Ban

  datatype Credentials = Credentials(email: Option<string>, password: Option<string>)

  /** The object `authorize` returns on success; `id` is `user.id.toString()`. */
  datatype Identity = Identity(id: string, email: string, name: string, role: Role)

  datatype Login = Login(user: Option<Identity>, users: Table)

  function Authorize(users: Table, creds: Credentials, now: int,
                     matches: (string, string) -> bool, fails: bool): (r: Login)
    // a missing email or password is refused before the store is read
    ensures !Present(creds.email) || !Present(creds.password) ==> r == Login(None, users)
    // a raised error is swallowed into a refusal
    ensures fails ==> r == Login(None, users)
    // success means: the first case-insensitive match, a matching password,
    // and a ban that is not in force; the identity is that row's
    ensures r.user.Some? ==>
      && Present(creds.email) && Present(creds.password) && !fails
      && var k := Find(users, EmailFolded(creds.email.value));
      && k.Some?
      && matches(creds.password.value, users[k.value].passwordHash)
      && EvaluateUser(users[k.value], now) != InForce
      && r.user.value == Identity(IntToDecimal(users[k.value].id), users[k.value].email,
                                  users[k.value].name, users[k.value].role)
    // the store changes only by clearing a lapsed ban on the row that logged in
    ensures r.users == users || (r.user.Some? && r.users == ClearedAt(users, creds.email.value))
    // conversely, every such login gets in, clearing the ban exactly when it lapsed
    ensures !fails && Present(creds.email) && Present(creds.password) ==>
            var k := Find(users, EmailFolded(creds.email.value));
            k.Some? && matches(creds.password.value, users[k.value].passwordHash)
            && EvaluateUser(users[k.value], now) != InForce
            ==> && r.user.Some?
                && r.users == (if EvaluateUser(users[k.value], now) == Lapsed
                               then ClearedAt(users, creds.email.value) else users)
  {
    if fails || !Present(creds.email) || !Present(creds.password) then Login(None, users)
    else
      match Find(users, EmailFolded(creds.email.value))
      case None => Login(None, users)
      case Some(k) =>
        var u := users[k];
        if !matches(creds.password.value, u.passwordHash) then Login(None, users)
        else
          var verdict := EvaluateUser(u, now);
          var identity := Identity(IntToDecimal(u.id), u.email, u.name, u.role);
          if verdict == InForce then Login(None, users)
          else if verdict == Lapsed then Login(Some(identity), UpdateWhereId(users, u.id, ClearExpiredBan))
          else Login(Some(identity), users)
  }

  /** The store after the auto-unban of the row the email resolves to. */
  function ClearedAt(users: Table, email: string): Table {
    match Find(users, EmailFolded(email))
    case None => users
    case Some(k) => UpdateWhereId(users, users[k].id, ClearExpiredBan)
  }

  /** A correct password for the first matching row is still refused while
      the ban on that row is in force, and nothing is written. */
  lemma BannedLoginDenied(users: Table, email: string, password: string, now: int,
                          matches: (string, string) -> bool)
    requires password != "" && email != ""
    requires Find(users, EmailFolded(email)).Some?
    requires EvaluateUser(users[Find(users, EmailFolded(email)).value], now) == InForce
    ensures Authorize(users, Credentials(Some(email), Some(password)), now, matches, false)
            == Login(None, users)
  {
  }

  /** A lapsed ban does not stop the login: the user gets in, and the row's
      `is_banned`, `ban_reason` and `banned_until` are cleared while
      `banned_by` and every other row stay as they were. */
  lemma LapsedBanLoginClears(users: Table, email: string, password: string, now: int,
                             matches: (string, string) -> bool)
    requires IdsAscending(users)
    requires password != "" && email != ""
    requires Find(users, EmailFolded(email)).Some?
    requires matches(password, users[Find(users, EmailFolded(email)).value].passwordHash)
    requires EvaluateUser(users[Find(users, EmailFolded(email)).value], now) == Lapsed
    ensures var k := Find(users, EmailFolded(email)).value;
            var r := Authorize(users, Credentials(Some(email), Some(password)), now, matches, false);
            && r.user.Some?
            && |r.users| == |users|
            && r.users[k] == ClearExpiredBan(users[k])
            && r.users[k].bannedBy == users[k].bannedBy
            && (forall j :: 0 <= j < |users| && j != k ==> r.users[j] == users[j])
            && EvaluateUser(r.users[k], now) == NotBanned
  {
    var k := Find(users, EmailFolded(email)).value;
    var r := Authorize(users, Credentials(Some(email), Some(password)), now, matches, false);
    assert r.users == UpdateWhereId(users, users[k].id, ClearExpiredBan);
    forall j | 0 <= j < |users| && j != k
      ensures r.users[j] == users[j]
    {
      if j < k { assert users[j].id < users[k].id; } else { assert users[k].id < users[j].id; }
    }
  }

  /** The identity's id is the decimal form of the row id, so the session id
      that later reaches ban-status resolves back to the same row. */
  lemma IdentityAddressesItsRow(users: Table, creds: Credentials, now: int,
                                matches: (string, string) -> bool)
    requires IdsAscending(users)
    requires Authorize(users, creds, now, matches, false).user.Some?
    ensures var r := Authorize(users, creds, now, matches, false);
            var k := Find(users, EmailFolded(creds.email.value)).value;
            && ParseInt(r.user.value.id) == Some(users[k].id)
            && Find(r.users, IdIs(users[k].id)) == Some(k)
  {
    var r := Authorize(users, creds, now, matches, false);
    var k := Find(users, EmailFolded(creds.email.value)).value;
    IntDecimalRoundTrip(users[k].id);
    if r.users != users {
      var u' := ClearExpiredBan(users[k]);
      assert r.users == UpdateWhereId(users, users[k].id, ClearExpiredBan);
      assert r.users == users[k := u'] by {
        forall j | 0 <= j < |users| ensures r.users[j] == users[k := u'][j] {
          if j < k { assert users[j].id < users[k].id; }
          else if j > k { assert users[k].id < users[j].id; }
        }
      }
      FindAfterUpdate(users, k, u', IdIs(users[k].id));
    }
    FindIdUnique(users, users[k].id, k);
  }

  /** Two rows whose emails differ only in case: the later one can never log
      in, because every lookup lands on the earlier row. Whatever password is
      given, a successful login yields the earlier row's identity. */
  lemma LaterCaseVariantShadowed(users: Table, i: nat, j: nat, password: string, now: int,
                                 matches: (string, string) -> bool)
    requires IdsAscending(users)
    requires i < j < |users|
    requires Lower(users[i].email) == Lower(users[j].email) && users[j].email != ""
    ensures var r := Authorize(users, Credentials(Some(users[j].email), Some(password)), now, matches, false);
            r.user.Some? ==> r.user.value.id != IntToDecimal(users[j].id)
  {
    var k := Find(users, EmailFolded(users[j].email));
    assert Matches(users[i], EmailFolded(users[j].email));
    assert k.Some? && k.value <= i;
    var r := Authorize(users, Credentials(Some(users[j].email), Some(password)), now, matches, false);
    assert users[k.value].id < users[j].id;
    IntDecimalRoundTrip(users[k.value].id);
    IntDecimalRoundTrip(users[j].id);
  }

  // -----------------------------------------------------------------------
  // Callbacks

  /** `signIn` vetoes only when no user was produced and the row the email
      resolves to has `is_banned` set (the raw flag: a lapsed but not yet
      cleared ban also vetoes). */
  function SignIn(user: Option<Identity>, email: Option<string>, users: Table, fails: bool): (ok: bool)
    ensures !ok <==> && !fails && user.None? && Present(email)
                     && Find(users, EmailFolded(email.value)).Some?
                     && users[Find(users, EmailFolded(email.value)).value].isBanned
  {
    if fails then true  // an error here escapes the callback; modelled as no veto
    else if user.None? && Present(email) then
      match Find(users, EmailFolded(email.value))
      case Some(k) => !users[k].isBanned
      case None => true
    else true
  }

  /** After a successful `authorize`, `signIn` never vetoes. */
  lemma SignInAfterAuthorize(users: Table, creds: Credentials, now: int,
                             matches: (string, string) -> bool)
    ensures var r := Authorize(users, creds, now, matches, false);
            r.user.Some? ==> SignIn(r.user, creds.email, r.users, false)
  {
  }

  /** The JWT carries the role and id captured at sign-in. */
  datatype Token = Token(sub: Option<string>, email: Option<string>, name: Option<string>,
                         role: Option<Role>, id: Option<string>)

  function Jwt(token: Token, user: Option<Identity>): (t: Token)
    ensures user.Some? ==> t.role == Some(user.value.role) && t.id == Some(user.value.id)
    ensures t.(role := token.role, id := token.id) == token
    ensures user.None? ==> t == token
  {
    match user
    case Some(u) => token.(role := Some(u.role), id := Some(u.id))
    case None => token
  }

  /** Re-running `jwt` without a user any number of times leaves the token
      alone: the role is a snapshot taken at sign-in and is never refreshed
      from the store, even if an admin changes it later. */
  function Refresh(token: Token, n: nat): Token {
    if n == 0 then token else Refresh(Jwt(token, None), n - 1)
  }

  lemma {:induction false} RoleIsFrozen(token: Token, u: Identity, n: nat)
    ensures Refresh(Jwt(token, Some(u)), n).role == Some(u.role)
    ensures Refresh(Jwt(token, Some(u)), n).id == Some(u.id)
    decreases n
  {
    if n > 0 {
      assert Jwt(Jwt(token, Some(u)), None) == Jwt(token, Some(u));
      RoleIsFrozen(token, u, n - 1);
    }
  }

  datatype SessionUser = SessionUser(id: Option<string>, email: Option<string>,
                                     name: Option<string>, role: Option<Role>)
  datatype Session = Session(user: Option<SessionUser>)

  /** `session` copies the token's id and role onto `session.user` when both exist. */
  function SessionCallback(session: Session, token: Token): (s: Session)
    ensures session.user.None? ==> s == session
    ensures session.user.Some? ==>
      && s.user.Some?
      && s.user.value.id == token.id && s.user.value.role == token.role
      && s.user.value.email == session.user.value.email
      && s.user.value.name == session.user.value.name
  {
    match session.user
    case Some(su) => Session(Some(su.(id := token.id, role := token.role)))
    case None => session
  }

  /** However many times the token is refreshed after sign-in, the session
      reports the role and id captured at sign-in. */
  lemma SessionKeepsSignInRole(session: Session, token: Token, u: Identity, n: nat)
    requires session.user.Some?
    ensures var s := SessionCallback(session, Refresh(Jwt(token, Some(u)), n));
            s.user.Some? && s.user.value.role == Some(u.role) && s.user.value.id == Some(u.id)
  {
    RoleIsFrozen(token, u, n);
  }
}

=== FILE: ban.dfy ===
/** The ban rule that lib/auth.ts, the ban-status, ban-check and check-email
    routes each spell out inline:

      if (user.is_banned) {
        bannedUntil := banned_until ? new Date(banned_until) : null
        if (!bannedUntil || now < bannedUntil)      -> ban in force
        if (bannedUntil && now >= bannedUntil)      -> ban over, clear it
      }

    A `banned_until` text that does not parse is an Invalid Date: it is a
    truthy object, and both comparisons with it are false, so such a ban is
    neither in force nor over. */
module Ban {
  import opened Common
  import opened Users

  datatype Verdict =
    | NotBanned        // is_banned is 0
    | InForce          // permanent, or now < banned_until
    | Lapsed           // now >= banned_until
    | Undecidable      // banned_until is an Invalid Date

  function Evaluate(isBanned: bool, until: Option<Deadline>, now: int): Verdict {
    if !isBanned then NotBanned
    else match until
      case None => InForce
      case Some(Unparseable) => Undecidable
      case Some(At(t)) => if now < t then InForce else Lapsed
  }

  function EvaluateUser(u: UserRecord, now: int): Verdict {
    Evaluate(u.isBanned, u.bannedUntil, now)
  }

  /** The four outcomes, each characterised by the stored fields alone. */
  lemma EvaluateCases(isBanned: bool, until: Option<Deadline>, now: int)
    ensures Evaluate(isBanned, until, now) == NotBanned <==> !isBanned
    ensures Evaluate(isBanned, until, now) == InForce
      <==> isBanned && (until.None? || (until.value.At? && now < until.value.ms))
    ensures Evaluate(isBanned, until, now) == Lapsed
      <==> isBanned && until.Some? && until.value.At? && until.value.ms <= now
    ensures Evaluate(isBanned, until, now) == Undecidable
      <==> isBanned && until == Some(Unparseable)
  {
  }

  /** A permanent ban never lapses, whatever the clock says. */
  lemma PermanentBanNeverLapses(now: int)
    ensures Evaluate(true, None, now) == InForce
  {
  }

  /** Time only moves a timed ban from in force to lapsed, never back. */
  lemma LapseIsMonotone(isBanned: bool, until: Option<Deadline>, now: int, later: int)
    requires now <= later
    ensures Evaluate(isBanned, until, now) == Lapsed ==> Evaluate(isBanned, until, later) == Lapsed
    ensures Evaluate(isBanned, until, later) == InForce ==> Evaluate(isBanned, until, now) == InForce
  {
  }

  /** A timed ban is in force exactly up to its deadline: at `t - 1` it
      holds and from `t` on it has lapsed. */
  lemma DeadlineIsTheBoundary(t: int)
    ensures Evaluate(true, Some(At(t)), t - 1) == InForce
    ensures Evaluate(true, Some(At(t)), t) == Lapsed
  {
  }

  /** After the expiry write the record reads as not banned at any time, and
      a second clear writes nothing new: the auto-unban is idempotent. */
  lemma ClearIsFinal(u: UserRecord, now: int)
    ensures EvaluateUser(ClearExpiredBan(u), now) == NotBanned
    ensures ClearExpiredBan(ClearExpiredBan(u)) == ClearExpiredBan(u)
  {
  }

  /** The auto-unban keeps `banned_by`, so a record can be not banned yet
      still name the admin who banned it: the invariant "not banned implies
      all ban fields are null" does not survive an expiry clear. */
  lemma ClearKeepsBannedBy(u: UserRecord, admin: int)
    requires u.bannedBy == Some(admin)
    ensures !ClearExpiredBan(u).isBanned && ClearExpiredBan(u).bannedBy == Some(admin)
  {
  }
}

=== FILE: ban_poller.dfy ===
/** lib/useBanCheck.ts as an event-driven state machine.

    Timers, `Date.now()`, the network round-trip and `window.location` are
    events: a firing of the 60 s poll interval (`PollTick`), the tab becoming
    visible again (`VisibilityRegained`, carrying the time at which its 1 s
    delayed check runs), the settling of the fetch (`Response`), a firing of
    the 1 s countdown interval (`CountdownTick`), a change of the session
    (`SessionChanged`) and unmounting (`Unmount`).

    React re-runs the setup effect whenever one of its dependencies
    `[session, status, checkBanStatus]` changes, running the previous run's
    cleanup first; `checkBanStatus` is a `useCallback` over
    `[session, status, checking]`, so every flip of `checking` re-runs the
    effect too. `ReactStep` models that; its `keepCountdown` switch says
    whether the cleanup spares the countdown interval (`false` is the code as
    written, `true` the corrected hook). */
module BanPoller {
  import opened Common
  import opened Users

  const CheckInterval: int := 60000      // CHECK_INTERVAL, the poll period
  const MinCheckInterval: int := 60000   // MIN_CHECK_INTERVAL, the throttle
  const CountdownStart: int := 10        // setCountdown(10)

  datatype BanInfo = BanInfo(reason: Option<string>, bannedUntil: Option<Deadline>)

  datatype Poller = Poller(
    authenticated: bool,     // status === "authenticated" && session
    checking: bool,          // a ban-status request is in flight
    lastCheck: int,          // lastCheckRef, stamped when a request starts
    banInfo: Option<BanInfo>,
    countdown: int,
    initialized: bool,       // hasInitializedRef
    pollTimer: bool,         // intervalRef holds a live interval
    countdownTimer: bool,    // countdownIntervalRef holds a live interval
    signedOut: bool,         // signOut({ redirect: false }) was called
    redirects: nat)          // navigations to "/" issued

  const Initial := Poller(false, false, 0, None, 0, false, false, false, false, 0)

  /** How the fetch of /api/auth/ban-status settles. */
  datatype ServerReply =
    | Banned(info: BanInfo)  // response.ok and isBanned
    | Clean                  // response.ok and not isBanned
    | NotOk                  // 401, 404, 500 ...
    | NetworkError           // fetch or json() threw

  datatype Event =
    | SessionChanged(authenticated: bool, now: int)
    | PollTick(now: int)
    | VisibilityRegained(now: int)
    | Response(reply: ServerReply, now: int)
    | CountdownTick
    | Unmount

  predicate Elapsed(s: Poller, now: int) {
    now - s.lastCheck >= MinCheckInterval
  }

  // -----------------------------------------------------------------------
  // The handlers

  /** `checkBanStatus`: gated on being authenticated and not already checking,
      throttled by the interval since the last stamp, and stamping `lastCheck`
      before the request goes out. */
  function CheckBanStatus(s: Poller, now: int): (r: Poller)
    ensures !s.authenticated || s.checking || !Elapsed(s, now) ==> r == s
    ensures s.authenticated && !s.checking && Elapsed(s, now) ==>
      r.checking && r.lastCheck == now && r.(checking := false, lastCheck := s.lastCheck) == s
  {
    if !s.authenticated || s.checking then s
    else if !Elapsed(s, now) then s
    else s.(checking := true, lastCheck := now)
  }

  /** The settled fetch: a ban signs out at once, records the info and starts
      a 10-step countdown; any other outcome only resets `checking`. */
  function OnResponse(s: Poller, reply: ServerReply): (r: Poller)
    ensures !s.checking ==> r == s
    ensures s.checking && reply.Banned? ==>
      && !r.checking && r.signedOut && r.banInfo == Some(reply.info)
      && r.countdown == CountdownStart && r.countdownTimer
      && r.lastCheck == s.lastCheck && r.redirects == s.redirects
    ensures s.checking && !reply.Banned? ==> r == s.(checking := false)
  {
    if !s.checking then s
    else match reply
      case Banned(info) =>
        s.(checking := false, signedOut := true, banInfo := Some(info),
           countdown := CountdownStart, countdownTimer := true)
      case _ => s.(checking := false)
  }

  /** One firing of the countdown interval. */
  function OnCountdownTick(s: Poller): (r: Poller)
    ensures !s.countdownTimer ==> r == s
    ensures s.countdownTimer && s.countdown > 1 ==>
      r == s.(countdown := s.countdown - 1)
    // the last step stops the interval and navigates, touching nothing else
    ensures s.countdownTimer && s.countdown <= 1 ==>
      && r.countdown == 0 && !r.countdownTimer && r.redirects == s.redirects + 1
      && r.(countdown := s.countdown, countdownTimer := true, redirects := s.redirects) == s
  {
    if !s.countdownTimer then s
    else if s.countdown <= 1 then
      s.(countdown := 0, countdownTimer := false, redirects := s.redirects + 1)
    else s.(countdown := s.countdown - 1)
  }

  /** The effect's cleanup: both intervals cleared and the init flag reset
      (with `keepCountdown`, the countdown interval survives). */
  function Cleanup(s: Poller, keepCountdown: bool): (r: Poller)
    ensures !r.pollTimer && !r.initialized
    ensures r.countdownTimer == (keepCountdown && s.countdownTimer)
    ensures r.(pollTimer := s.pollTimer, countdownTimer := s.countdownTimer, initialized := s.initialized) == s
  {
    s.(pollTimer := false, countdownTimer := keepCountdown && s.countdownTimer, initialized := false)
  }

  /** The effect's body: off when unauthenticated, once when initialized,
      and otherwise an initial check (if the throttle allows) plus the poll
      interval. */
  function Setup(s: Poller, now: int): (r: Poller)
    ensures !s.authenticated ==> r == s.(initialized := false)
    ensures s.authenticated && s.initialized ==> r == s
    ensures s.authenticated && !s.initialized ==>
      && r.initialized && r.pollTimer
      && (r.checking <==> s.checking || Elapsed(s, now))
      // a check that starts stamps the time; the rest of the state is kept
      && r.lastCheck == (if !s.checking && Elapsed(s, now) then now else s.lastCheck)
      && r.banInfo == s.banInfo && r.countdown == s.countdown
      && r.countdownTimer == s.countdownTimer && r.redirects == s.redirects
      && r.(checking := s.checking, lastCheck := s.lastCheck, initialized := s.initialized, pollTimer := s.pollTimer) == s
  {
    if !s.authenticated then s.(initialized := false)
    else if s.initialized then s
    else
      var s1 := s.(initialized := true);
      var s2 := if Elapsed(s1, now) then CheckBanStatus(s1, now) else s1;
      s2.(pollTimer := true)
  }

  /** The visibility handler: schedule a check only when the throttle allows. */
  function OnVisible(s: Poller, now: int): (r: Poller)
    ensures !s.authenticated || !Elapsed(s, now) ==> r == s
    ensures r == s || (r.checking && r.lastCheck == now)
    ensures s.authenticated && !s.checking && Elapsed(s, now) ==> r.checking && r.lastCheck == now
  {
    if s.authenticated && Elapsed(s, now) then CheckBanStatus(s, now) else s
  }

  // -----------------------------------------------------------------------
  // React's dependency re-runs

  /** The effect re-runs: the previous run's cleanup (registered only when
      that run got past the guard, i.e. set the init flag), then the body. */
  function Rerun(s: Poller, now: int, keepCountdown: bool): Poller {
    Setup(if s.initialized then Cleanup(s, keepCountdown) else s, now)
  }

  predicate DepsEqual(a: Poller, b: Poller) {
    a.checking == b.checking && a.authenticated == b.authenticated
  }

  /** Re-render after a state change, re-running the effect while its
      dependencies keep changing. Two rounds suffice (see `RerenderSettles`). */
  function Rerender(prev: Poller, cur: Poller, now: int, keepCountdown: bool): Poller {
    if DepsEqual(prev, cur) then cur
    else
      var r1 := Rerun(cur, now, keepCountdown);
      if DepsEqual(cur, r1) then r1 else Rerun(r1, now, keepCountdown)
  }

  /** A re-run that starts a check leaves `lastCheck` at `now`, so the next
      re-run at the same time cannot start another: the re-render loop stops
      after at most two rounds. */
  lemma RerenderSettles(cur: Poller, now: int, keepCountdown: bool)
    requires !DepsEqual(cur, Rerun(cur, now, keepCountdown))
    ensures var r1 := Rerun(cur, now, keepCountdown);
            DepsEqual(r1, Rerun(r1, now, keepCountdown))
  {
  }

  function ReactStep(s: Poller, e: Event, keepCountdown: bool): Poller {
    match e
    case SessionChanged(auth, now) =>
      // a new session object is itself a dependency change
      var cur := s.(authenticated := auth);
      var r1 := Rerun(cur, now, keepCountdown);
      if DepsEqual(cur, r1) then r1 else Rerun(r1, now, keepCountdown)
    case PollTick(now) =>
      if s.pollTimer then Rerender(s, CheckBanStatus(s, now), now, keepCountdown) else s
    case VisibilityRegained(now) => Rerender(s, OnVisible(s, now), now, keepCountdown)
    case Response(reply, now) => Rerender(s, OnResponse(s, reply), now, keepCountdown)
    case CountdownTick => OnCountdownTick(s)
    // React runs the cleanup of the last effect run, if that run registered one
    case Unmount => if s.initialized then Cleanup(s, keepCountdown) else s
  }

  function Run(s: Poller, events: seq<Event>, keepCountdown: bool): Poller
    decreases |events|
  {
    if events == [] then s else Run(ReactStep(s, events[0], keepCountdown), events[1..], keepCountdown)
  }

  // -----------------------------------------------------------------------
  // Properties

  function Ticks(s: Poller, n: nat): Poller
    decreases n
  {
    if n == 0 then s else Ticks(OnCountdownTick(s), n - 1)
  }

  /** With the countdown interval live at `c`, the first `c - 1` ticks only
      count down and the `c`-th navigates to "/", exactly once; no later tick
      navigates again. */
  lemma {:induction false} CountdownRedirectsOnLastTick(s: Poller, n: nat)
    requires s.countdownTimer && s.countdown >= 1
    ensures n < s.countdown ==>
      && Ticks(s, n).redirects == s.redirects
      && Ticks(s, n).countdownTimer && Ticks(s, n).countdown == s.countdown - n
    ensures n >= s.countdown ==>
      && Ticks(s, n).redirects == s.redirects + 1
      && !Ticks(s, n).countdownTimer && Ticks(s, n).countdown == 0
    decreases n
  {
    if n > 0 {
      var t := OnCountdownTick(s);
      if s.countdown > 1 {
        CountdownRedirectsOnLastTick(t, n - 1);
      } else {
        TicksIdleWithoutTimer(t, n - 1);
      }
    }
  }

  /** Without a live countdown interval no tick does anything. */
  lemma {:induction false} TicksIdleWithoutTimer(s: Poller, n: nat)
    requires !s.countdownTimer
    ensures Ticks(s, n) == s
    decreases n
  {
    if n > 0 {
      TicksIdleWithoutTimer(OnCountdownTick(s), n - 1);
    }
  }

  /** A run of countdown ticks is `Ticks`, whatever the re-run policy. */
  lemma {:induction false} RunOfTicks(s: Poller, n: nat, keepCountdown: bool)
    ensures Run(s, seq(n, _ => CountdownTick), keepCountdown) == Ticks(s, n)
    decreases n
  {
    if n > 0 {
      var evs := seq(n, _ => CountdownTick);
      assert evs[0] == CountdownTick;
      assert evs[1..] == seq(n - 1, _ => CountdownTick);
      RunOfTicks(OnCountdownTick(s), n - 1, keepCountdown);
    }
  }

  /** A request that fails or comes back not-OK still throttles: the stamp
      was taken when it started, so for the next minute neither a poll tick
      nor a visibility regain starts another, even across the effect
      re-runs the finished request triggers. */
  lemma FailedCheckStillThrottles(s: Poller, t: int, reply: ServerReply, t1: int, t2: int, keepCountdown: bool)
    requires s.authenticated && s.initialized && !s.checking && s.pollTimer && Elapsed(s, t)
    requires !reply.Banned?
    requires t <= t1 <= t2 < t + MinCheckInterval
    ensures var started := ReactStep(s, PollTick(t), keepCountdown);
            var settled := ReactStep(started, Response(reply, t1), keepCountdown);
            && started.checking && started.lastCheck == t
            && !settled.checking && settled.lastCheck == t
            && !ReactStep(settled, PollTick(t2), keepCountdown).checking
            && !ReactStep(settled, VisibilityRegained(t2), keepCountdown).checking
  {
  }

  /** The hook as written: once a check is in flight the effect has run its
      setup, so when a "banned" reply resets `checking` the re-run's cleanup
      clears the countdown interval that reply just started. The user is
      signed out and sees the ban notice with the countdown stuck at 10, and
      no number of ticks ever navigates to "/". */
  lemma CountdownCancelledAsWritten(s: Poller, info: BanInfo, now: int, n: nat)
    requires s.checking && s.initialized
    ensures var r := ReactStep(s, Response(Banned(info), now), false);
            && r.signedOut && r.banInfo == Some(info) && r.countdown == CountdownStart
            && !r.countdownTimer
            && Ticks(r, n).redirects == s.redirects
  {
    var r := ReactStep(s, Response(Banned(info), now), false);
    TicksIdleWithoutTimer(r, n);
  }

  /** The corrected hook, whose dependency re-runs spare the countdown
      interval: after a "banned" reply the tenth tick, and no earlier one,
      navigates to "/". */
  lemma CountdownRedirectsWhenSpared(s: Poller, info: BanInfo, now: int, n: nat)
    requires s.checking
    ensures var r := ReactStep(s, Response(Banned(info), now), true);
            && r.signedOut && r.banInfo == Some(info) && r.countdownTimer && r.countdown == CountdownStart
            && (n < 10 ==> Ticks(r, n).redirects == s.redirects)
            && (n >= 10 ==> Ticks(r, n).redirects == s.redirects + 1)
  {
    var r := ReactStep(s, Response(Banned(info), now), true);
    CountdownRedirectsOnLastTick(r, n);
  }

  /** In the corrected hook the sign-out that follows the ban (the session
      going away) does not disturb the running countdown. */
  lemma SignOutSparesCountdown(s: Poller, now: int)
    ensures var r := ReactStep(s, SessionChanged(false, now), true);
            && r.countdownTimer == s.countdownTimer && r.countdown == s.countdown
            && r.redirects == s.redirects && !r.initialized && !r.authenticated
            && (s.initialized ==> !r.pollTimer)
  {
  }

  /** The whole story from a fresh login, as a trace: log in at `t`, the
      initial check comes back "banned", then ten ticks of the countdown.
      As written nothing navigates; corrected, exactly one navigation. */
  lemma LoginBannedTrace(t: int, info: BanInfo)
    requires t >= MinCheckInterval
    ensures var events := [SessionChanged(true, t), Response(Banned(info), t + 100)]
                          + seq(10, _ => CountdownTick);
            && Run(Initial, events, false).redirects == 0
            && Run(Initial, events, true).redirects == 1
  {
    var ticks := seq(10, _ => CountdownTick);
    var events := [SessionChanged(true, t), Response(Banned(info), t + 100)] + ticks;
    assert events[1..][1..] == ticks;
    // logging in runs the initial check; the flip of `checking` re-runs the effect
    var s1 := Poller(true, true, t, None, 0, true, true, false, false, 0);
    forall keep: bool
      ensures Run(Initial, events, keep) == Ticks(s1.(checking := false, signedOut := true,
                banInfo := Some(info), countdown := CountdownStart, countdownTimer := keep), 10)
    {
      assert ReactStep(Initial, events[0], keep) == s1;
      var s2 := s1.(checking := false, signedOut := true, banInfo := Some(info),
                    countdown := CountdownStart, countdownTimer := keep);
      assert ReactStep(s1, events[1..][0], keep) == s2;
      RunOfTicks(s2, 10, keep);
    }
    var base := s1.(checking := false, signedOut := true, banInfo := Some(info), countdown := CountdownStart);
    TicksIdleWithoutTimer(base.(countdownTimer := false), 10);
    CountdownRedirectsOnLastTick(base.(countdownTimer := true), 10);
  }
}

=== FILE: ban_routes.dfy ===
/** The three read paths that apply the ban rule to a live row:
    app/api/auth/ban-status/route.ts (authenticated, auto-clears, 401/404/500),
    app/api/auth/ban-check/route.ts (fail-open: every failure reads as "not
    banned") and app/api/auth/check-email/route.ts (unauthenticated lookup by
    email, never writes).

    `fails` stands for the database raising inside the route's `try` block,
    once the checks that need no store (the session, the body's email) have
    passed. */
module BanRoutes {
  import opened Common
  import opened Users
  import opened Ban
  import opened Auth


  // -----------------------------------------------------------------------
  // GET /api/auth/ban-status

  datatype StatusBody =
    | StatusError(error: string)
    | StatusReport(isBanned: bool, reason: Option<string>, bannedUntil: Option<Deadline>)

  datatype StatusOutcome = StatusOutcome(reply: Reply<StatusBody>, users: Table)

  const NotBannedReport := StatusReport(false, None, None)

  function BanStatus(users: Table, session: Option<Session>, now: int, fails: bool): (r: StatusOutcome)
    ensures r.reply.status in {200, 401, 404, 500}
    ensures r.reply.status == 401 <==> session.None?
    // a thrown database error, or `session.user.id` on a session without a user
    ensures r.reply.status == 500 <==> session.Some? && (fails || session.value.user.None?)
    ensures r.reply.status != 200 ==> r.users == users && r.reply.body.StatusError?
    // the row is the one whose id the session's decimal id denotes; a missing
    // id is bound as NULL, which no row's id equals
    ensures r.reply.status == 404 <==>
      && session.Some? && !fails && session.value.user.Some?
      && var id := session.value.user.value.id;
      && (|| id.None?
          || var n := ParseInt(id.value);
             n.None? || Find(users, IdIs(n.value)).None?)
    ensures r.reply.status == 200 ==>
      && session.Some? && session.value.user.Some? && session.value.user.value.id.Some?
      && var n := ParseInt(session.value.user.value.id.value);
      && n.Some? && Find(users, IdIs(n.value)).Some?
      && var u := users[Find(users, IdIs(n.value)).value];
      && (if EvaluateUser(u, now) == InForce
          then r.reply.body == StatusReport(true, u.banReason, u.bannedUntil) && r.users == users
          else r.reply.body == NotBannedReport
               && r.users == (if EvaluateUser(u, now) == Lapsed
                              then UpdateWhereId(users, n.value, ClearExpiredBan) else users))
  {
    match session
    case None => StatusOutcome(Reply(401, StatusError("Unauthorized")), users)
    case Some(s) =>
      // `session.user.id` on a session without a user throws a TypeError
      if fails || s.user.None? then
        StatusOutcome(Reply(500, StatusError("Internal server error")), users)
      else
        var n := if s.user.value.id.Some? then ParseInt(s.user.value.id.value) else None;
        var row := if n.Some? then Find(users, IdIs(n.value)) else None;
        if row.None? then StatusOutcome(Reply(404, StatusError("User not found")), users)
        else
          var u := users[row.value];
          match EvaluateUser(u, now)
          case InForce => StatusOutcome(Reply(200, StatusReport(true, u.banReason, u.bannedUntil)), users)
          case Lapsed => StatusOutcome(Reply(200, NotBannedReport), UpdateWhereId(users, n.value, ClearExpiredBan))
          case _ => StatusOutcome(Reply(200, NotBannedReport), users)
  }

  /** Polling twice is polling once: the second call on the store the first
      one left behind gives the same reply and writes nothing new. */
  lemma BanStatusIdempotent(users: Table, session: Option<Session>, now: int)
    ensures var first := BanStatus(users, session, now, false);
            BanStatus(first.users, session, now, false) == first
  {
    var first := BanStatus(users, session, now, false);
    if first.users != users {
      var n := ParseInt(session.value.user.value.id.value).value;
      var k := Find(users, IdIs(n)).value;
      FindAfterClear(users, n, IdIs(n));
      assert first.users[k] == ClearExpiredBan(users[k]);
      ClearIsFinal(users[k], now);
    }
  }

  /** The session check comes before any database call: no session is a
      401 even when the database would have thrown, and an id-less user is
      looked up under NULL and not found. */
  lemma BanStatusGatesBeforeStore(users: Table, su: SessionUser, now: int, fails: bool)
    requires su.id.None?
    ensures BanStatus(users, None, now, fails).reply.status == 401
    ensures BanStatus(users, Some(Session(Some(su))), now, false).reply.status == 404
  {
  }

  /** A user banned with a deadline one hour in the past is reported as not
      banned by a single poll, and that same poll clears the stored flag. */
  lemma ExpiredBanScenario(u: UserRecord, now: int)
    requires u.isBanned && u.bannedUntil == Some(At(now - 3600000))
    ensures var session := Some(Session(Some(SessionUser(Some(IntToDecimal(u.id)), None, None, None))));
            var r := BanStatus([u], session, now, false);
            && r.reply == Reply(200, StatusReport(false, None, None))
            && !r.users[0].isBanned
  {
    IntDecimalRoundTrip(u.id);
  }

  // -----------------------------------------------------------------------
  // GET /api/auth/ban-check

  datatype CheckBody =
    | Clear                                                     // { isBanned: false }
    | Suspended(banReason: Option<string>, bannedUntil: Option<Deadline>)

  datatype CheckOutcome = CheckOutcome(body: CheckBody, users: Table)

  function BanCheck(users: Table, session: Option<Session>, now: int, fails: bool): (r: CheckOutcome)
    // fail-open: no session, no id, no row or an error all read as not banned
    ensures fails ==> r == CheckOutcome(Clear, users)
    ensures session.None? || session.value.user.None? || !Present(session.value.user.value.id)
            ==> r == CheckOutcome(Clear, users)
    ensures r.body.Suspended? ==> r.users == users
  {
    if fails then CheckOutcome(Clear, users)
    else match session
      case None => CheckOutcome(Clear, users)
      case Some(s) =>
        if s.user.None? || !Present(s.user.value.id) then CheckOutcome(Clear, users)
        else
          var n := ParseInt(s.user.value.id.value);
          var row := if n.Some? then Find(users, IdIs(n.value)) else None;
          if row.None? then CheckOutcome(Clear, users)
          else
            var u := users[row.value];
            match EvaluateUser(u, now)
            case InForce => CheckOutcome(Suspended(u.banReason, u.bannedUntil), users)
            case Lapsed => CheckOutcome(Clear, UpdateWhereId(users, n.value, ClearExpiredBan))
            case _ => CheckOutcome(Clear, users)
  }

  /** Wherever ban-status answers 200, ban-check gives the same verdict with
      the same reason (under the key `banReason`) and leaves the same store. */
  lemma BanCheckAgreesWithBanStatus(users: Table, session: Option<Session>, now: int)
    requires BanStatus(users, session, now, false).reply.status == 200
    ensures var st := BanStatus(users, session, now, false);
            var ck := BanCheck(users, session, now, false);
            && ck.users == st.users
            && (ck.body.Suspended? <==> st.reply.body.isBanned)
            && (ck.body.Suspended? ==> ck.body.banReason == st.reply.body.reason
                                       && ck.body.bannedUntil == st.reply.body.bannedUntil)
  {
    var id := session.value.user.value.id.value;
    assert ParseInt(id).Some?;
    assert id != "";
  }

  /** Where ban-status answers an error, ban-check still answers "not banned"
      and writes nothing. */
  lemma BanCheckFailsOpen(users: Table, session: Option<Session>, now: int, fails: bool)
    requires BanStatus(users, session, now, fails).reply.status != 200
    ensures BanCheck(users, session, now, fails) == CheckOutcome(Clear, users)
  {
    if !fails && session.Some? && session.value.user.Some? && Present(session.value.user.value.id) {
      var n := ParseInt(session.value.user.value.id.value);
      assert n.None? || Find(users, IdIs(n.value)).None?;
    }
  }

  // -----------------------------------------------------------------------
  // POST /api/auth/check-email

  datatype EmailRequest = EmailRequest(email: Option<string>)

  datatype EmailBody =
    | EmailError(error: string)
    | Unknown                                        // { exists: false }
    | Known                                          // { exists: true, isBanned: false }
    | KnownBanned(banReason: Option<string>, bannedUntil: Option<Deadline>, isPermanent: bool)

  /** `request` is `None` when the body is not JSON (`request.json()` throws).
      The result carries no store: this route never writes. */
  function CheckEmail(users: Table, request: Option<EmailRequest>, now: int, fails: bool): (r: Reply<EmailBody>)
    ensures r.status in {200, 400, 500}
    // an unreadable body, or a thrown database error at the lookup
    ensures r.status == 500 <==> request.None? || (fails && Present(request.value.email))
    ensures r.status == 400 <==> request.Some? && !Present(request.value.email)
    ensures r.body.Unknown? <==>
      r.status == 200 && Find(users, EmailFolded(request.value.email.value)).None?
    ensures r.body.KnownBanned? ==>
      && r.status == 200
      && var u := users[Find(users, EmailFolded(request.value.email.value)).value];
      && EvaluateUser(u, now) == InForce
      && r.body == KnownBanned(u.banReason, u.bannedUntil, u.bannedUntil.None?)
    ensures r.body.Known? ==>
      && r.status == 200
      && Find(users, EmailFolded(request.value.email.value)).Some?
      && EvaluateUser(users[Find(users, EmailFolded(request.value.email.value)).value], now) != InForce
    // a known email is answered, banned exactly when the ban is in force
    ensures && !fails && request.Some? && Present(request.value.email)
            && Find(users, EmailFolded(request.value.email.value)).Some?
            ==> && r.status == 200
                && var u := users[Find(users, EmailFolded(request.value.email.value)).value];
                && (r.body.KnownBanned? <==> EvaluateUser(u, now) == InForce)
                && (r.body.Known? <==> EvaluateUser(u, now) != InForce)
  {
    if request.None? then Reply(500, EmailError("Internal server error"))
    else if !Present(request.value.email) then Reply(400, EmailError("Email is required"))
    else if fails then Reply(500, EmailError("Internal server error"))
    else match Find(users, EmailFolded(request.value.email.value))
      case None => Reply(200, Unknown)
      case Some(k) =>
        var u := users[k];
        if EvaluateUser(u, now) == InForce
        then Reply(200, KnownBanned(u.banReason, u.bannedUntil, u.bannedUntil.None?))
        else Reply(200, Known)
  }

  /** check-email does not depend on whether some poll already cleared a
      lapsed ban: it answers the same before and after ban-status runs. */
  lemma CheckEmailIgnoresClear(users: Table, session: Option<Session>, request: Option<EmailRequest>, now: int)
    requires IdsAscending(users)
    ensures CheckEmail(BanStatus(users, session, now, false).users, request, now, false)
            == CheckEmail(users, request, now, false)
  {
    var st := BanStatus(users, session, now, false);
    if st.users != users && request.Some? && Present(request.value.email) {
      var n := ParseInt(session.value.user.value.id.value).value;
      var key := EmailFolded(request.value.email.value);
      FindAfterClear(users, n, key);
      var k := Find(users, key);
      if k.Some? {
        var u := users[k.value];
        if u.id == n {
          FindIdUnique(users, n, k.value);
          ClearIsFinal(u, now);
        }
      }
    }
  }

  /** The email check comes before the lookup: a body without an email is a
      400 even when the database would have thrown. */
  lemma CheckEmailGatesBeforeStore(users: Table, now: int, fails: bool)
    ensures CheckEmail(users, Some(EmailRequest(None)), now, fails).status == 400
    ensures CheckEmail(users, Some(EmailRequest(Some(""))), now, fails).status == 400
  {
  }

  /** A case variant of a stored email finds the row: the lookup folds case. */
  lemma CheckEmailFoldsCase(users: Table, email: string, variant: string, now: int)
    requires email != "" && variant != "" && Lower(email) == Lower(variant)
    ensures CheckEmail(users, Some(EmailRequest(Some(email))), now, false)
            == CheckEmail(users, Some(EmailRequest(Some(variant))), now, false)
  {
    assert forall j :: 0 <= j < |users| ==>
      (Matches(users[j], EmailFolded(email)) <==> Matches(users[j], EmailFolded(variant)));
    FindFoldedEquivalent(users, email, variant, 0);
  }

  lemma {:induction false} FindFoldedEquivalent(users: Table, a: string, b: string, from: nat)
    requires from <= |users| && Lower(a) == Lower(b)
    ensures FindFrom(users, EmailFolded(a), from) == FindFrom(users, EmailFolded(b), from)
    decreases |users| - from
  {
    if from < |users| {
      FindFoldedEquivalent(users, a, b, from + 1);
    }
  }
}

=== FILE: common.dfy ===
/** Small shared vocabulary: optional values, JavaScript truthiness of
    request fields, route replies, SQLite's ASCII `LOWER`, and the decimal text form of
    integer ids (`Number.prototype.toString` and SQLite's text-to-integer
    coercion in `WHERE id = ?`). */
module Common {

  datatype Option<+T> = None | Some(value: T)

  /** What a route handler returns: `NextResponse.json(body, { status })`. */
  datatype Reply<B> = Reply(status: int, body: B)

  /** JavaScript truthiness of an optional string field: an absent field and
      the empty string are both falsy. */
  predicate Present(s: Option<string>) {
    s.Some? && s.value != ""
  }

  /** JavaScript truthiness of an optional number field: absent and 0 are falsy. */
  predicate PresentInt(n: Option<int>) {
    n.Some? && n.value != 0
  }

  // ---------------------------------------------------------------------
  // SQLite's built-in LOWER() folds only the ASCII letters A-Z.

  function LowerChar(c: char): char {
    if 'A' <= c <= 'Z' then (c as int + 32) as char else c
  }

  function Lower(s: string): string {
    seq(|s|, i requires 0 <= i < |s| => LowerChar(s[i]))
  }

  /** Folding twice is folding once, so `LOWER(x) = LOWER(y)` is an
      equivalence relation on emails. */
  lemma LowerIdempotent(s: string)
    ensures Lower(Lower(s)) == Lower(s)
  {
  }

  /** Case folding is the identity on strings with no upper-case ASCII letter. */
  lemma LowerFixesLowerCase(s: string)
    requires forall i :: 0 <= i < |s| ==> !('A' <= s[i] <= 'Z')
    ensures Lower(s) == s
  {
  }

  // ---------------------------------------------------------------------
  // JavaScript's `String.prototype.length` counts UTF-16 code units: a
  // character above U+FFFF is a surrogate pair and counts twice.

  function Utf16Units(c: char): (n: nat)
    ensures n == 1 || n == 2
  {
    if c as int > 0xFFFF then 2 else 1
  }

  function Utf16Length(s: string): (n: nat)
    ensures |s| <= n <= 2 * |s|
    decreases |s|
  {
    if s == [] then 0 else Utf16Length(s[..|s| - 1]) + Utf16Units(s[|s| - 1])
  }

  /** The length of a concatenation is the sum of the lengths. */
  lemma {:induction false} Utf16LengthAppend(a: string, b: string)
    ensures Utf16Length(a + b) == Utf16Length(a) + Utf16Length(b)
    decreases |b|
  {
    if b != [] {
      var b' := b[..|b| - 1];
      assert (a + b)[..|a + b| - 1] == a + b';
      Utf16LengthAppend(a, b');
    } else {
      assert a + b == a;
    }
  }

  /** On characters of the Basic Multilingual Plane the JavaScript length is
      the character count; every character beyond it adds one more unit. */
  lemma {:induction false} Utf16LengthBmp(s: string)
    ensures Utf16Length(s) == |s| <==> forall i :: 0 <= i < |s| ==> s[i] as int <= 0xFFFF
    decreases |s|
  {
    if s != [] {
      var s' := s[..|s| - 1];
      Utf16LengthBmp(s');
      if forall i :: 0 <= i < |s| ==> s[i] as int <= 0xFFFF {
        assert forall i :: 0 <= i < |s'| ==> s'[i] == s[i];
      } else if forall i :: 0 <= i < |s'| ==> s'[i] as int <= 0xFFFF {
        assert s[|s| - 1] as int > 0xFFFF;
      }
    }
  }

  // ---------------------------------------------------------------------
  // Decimal text of integers.

  predicate IsDigit(c: char) {
    '0' <= c <= '9'
  }

  predicate AllDigits(s: string) {
    forall i :: 0 <= i < |s| ==> IsDigit(s[i])
  }

  function DigitChar(d: nat): (c: char)
    requires d < 10
    ensures IsDigit(c)
  {
    ('0' as int + d) as char
  }

  /** The decimal numeral of `n`, most significant digit first, no leading zeros. */
  function NatToDecimal(n: nat): (s: string)
    ensures |s| >= 1
    ensures AllDigits(s)
    ensures |s| > 1 ==> s[0] != '0'
    decreases n
  {
    if n < 10 then [DigitChar(n)] else NatToDecimal(n / 10) + [DigitChar(n % 10)]
  }

  /** The value of a string of decimal digits (empty string reads as 0). */
  function DigitsValue(s: string): nat
    requires AllDigits(s)
  {
    if s == [] then 0 else DigitsValue(s[..|s| - 1]) * 10 + (s[|s| - 1] as int - '0' as int)
  }

  /** `n.toString()` for an integer `n`. */
  function IntToDecimal(i: int): (s: string)
    ensures |s| >= 1
  {
    if i < 0 then "-" + NatToDecimal(-i) else NatToDecimal(i)
  }

  /** Reading an integer numeral back: an optional minus sign followed by at
      least one digit; anything else does not denote an integer. */
  function ParseInt(s: string): Option<int> {
    if |s| > 1 && s[0] == '-' && AllDigits(s[1..]) then Some(-(DigitsValue(s[1..]) as int))
    else if |s| > 0 && AllDigits(s) then Some(DigitsValue(s))
    else None
  }

  lemma {:induction false} NatDecimalRoundTrip(n: nat)
    ensures DigitsValue(NatToDecimal(n)) == n
    decreases n
  {
    if n >= 10 {
      NatDecimalRoundTrip(n / 10);
      var s := NatToDecimal(n);
      assert s[..|s| - 1] == NatToDecimal(n / 10);
    }
  }

  /** The decimal form of an id parses back to the same id, so a session id
      produced by `id.toString()` addresses exactly the row it came from. */
  lemma IntDecimalRoundTrip(i: int)
    ensures ParseInt(IntToDecimal(i)) == Some(i)
  {
    if i < 0 {
      var t := NatToDecimal(-i);
      NatDecimalRoundTrip(-i);
      var s := "-" + t;
      assert s[1..] == t;
      assert s == IntToDecimal(i);
    } else {
      var t := NatToDecimal(i);
      NatDecimalRoundTrip(i);
      assert IsDigit(t[0]);
      assert t == IntToDecimal(i);
    }
  }

  /** Different ids have different decimal forms. */
  lemma IntToDecimalInjective(i: int, j: int)
    requires IntToDecimal(i) == IntToDecimal(j)
    ensures i == j
  {
    IntDecimalRoundTrip(i);
    IntDecimalRoundTrip(j);
  }

  // ---------------------------------------------------------------------
  // Sequences

  /** The first `n` elements, as JavaScript's `a.slice(0, n)` for `n >= 0`. */
  function Take<T>(s: seq<T>, n: nat): (r: seq<T>)
    ensures |r| == if n < |s| then n else |s|
    ensures forall i :: 0 <= i < |r| ==> r[i] == s[i]
  {
    if n < |s| then s[..n] else s
  }
}

=== FILE: migrations.dfy ===
/** The two scripts that retrofit the ban columns onto an existing `users`
    table: migrate-db.js (adds whichever of the four columns are missing)
    and migrate-ban-columns.js (keyed on `is_banned` alone: all four or
    nothing).

    A table's schema is its column list in order. `ALTER TABLE ... ADD
    COLUMN` appends one column and is refused when the name is already
    taken; each `db.exec` commits on its own, so the columns added before a
    refused one stay. Column names are compared exactly, as
    `Array.prototype.includes` does. */
module Migrations {
  import opened Common

  datatype Column = Column(name: string, definition: string)

  /** The four ban columns, in the order both scripts add them. */
  const BanColumns: seq<Column> := [
    Column("is_banned", "BOOLEAN DEFAULT 0"),
    Column("ban_reason", "TEXT"),
    Column("banned_until", "DATETIME"),
    Column("banned_by", "INTEGER REFERENCES users(id)")
  ]

  /** `PRAGMA table_info(users)` mapped to the column names. */
  function Names(cols: seq<Column>): (r: seq<string>)
    ensures |r| == |cols| && forall i :: 0 <= i < |cols| ==> r[i] == cols[i].name
  {
    seq(|cols|, i requires 0 <= i < |cols| => cols[i].name)
  }

  predicate HasColumn(cols: seq<Column>, name: string) {
    name in Names(cols)
  }

  lemma NamesAppend(cols: seq<Column>, c: Column)
    ensures Names(cols + [c]) == Names(cols) + [c.name]
  {
    assert Names(cols + [c]) == Names(cols) + [c.name] by {
      assert forall i :: 0 <= i < |cols| ==> (cols + [c])[i] == cols[i];
    }
  }

  /** One `ALTER TABLE users ADD COLUMN`. */
  function AddColumn(cols: seq<Column>, c: Column): (r: Option<seq<Column>>)
    ensures r.None? <==> HasColumn(cols, c.name)
    ensures r.Some? ==> r.value == cols + [c] && HasColumn(r.value, c.name)
  {
    NamesAppend(cols, c);
    if HasColumn(cols, c.name) then None else Some(cols + [c])
  }

  // -----------------------------------------------------------------------
  // migrate-db.js

  /** The wanted columns whose names the table lacks, in wanted order. */
  function MissingColumns(cols: seq<Column>, wanted: seq<Column>): seq<Column>
    decreases |wanted|
  {
    if wanted == [] then []
    else
      var last := wanted[|wanted| - 1];
      MissingColumns(cols, wanted[..|wanted| - 1]) + (if HasColumn(cols, last.name) then [] else [last])
  }

  /** Exactly the wanted columns the table lacks. */
  lemma {:induction false} MissingColumnsExactly(cols: seq<Column>, wanted: seq<Column>)
    ensures forall c :: c in MissingColumns(cols, wanted) <==> c in wanted && !HasColumn(cols, c.name)
    decreases |wanted|
  {
    if wanted != [] {
      var init := wanted[..|wanted| - 1];
      MissingColumnsExactly(cols, init);
      assert wanted == init + [wanted[|wanted| - 1]];
    }
  }

  /** The reference result of a run: the table with the missing columns
      appended, and the count the script reports. */
  function Migrate(cols: seq<Column>): (seq<Column>, nat) {
    var missing := MissingColumns(cols, BanColumns);
    (cols + missing, |missing|)
  }

  predicate DistinctColumnNames(cols: seq<Column>) {
    forall i, j :: 0 <= i < j < |cols| ==> cols[i].name != cols[j].name
  }

  /** Appending columns the table lacks under distinct names refuses none:
      after `MissingColumns(cols, w)` is appended, the next wanted name is
      still free if it was free in `cols`. */
  lemma {:induction false} MissingStaysFree(cols: seq<Column>, wanted: seq<Column>, i: nat)
    requires DistinctColumnNames(wanted) && i < |wanted|
    requires !HasColumn(cols, wanted[i].name)
    ensures !HasColumn(cols + MissingColumns(cols, wanted[..i]), wanted[i].name)
    decreases i
  {
    MissingColumnsExactly(cols, wanted[..i]);
  }

  lemma BanColumnsDistinct()
    ensures DistinctColumnNames(BanColumns)
  {
  }

  /** The script: the column names are read once, then each of the four is
      added if its name was not among them, counting the additions. */
  method MigrateDatabase(cols: seq<Column>) returns (after: seq<Column>, added: nat)
    ensures (after, added) == Migrate(cols)
    ensures after[..|cols|] == cols
  {
    var names := Names(cols);
    after := cols;
    added := 0;
    for i := 0 to |BanColumns|
      invariant after == cols + MissingColumns(cols, BanColumns[..i])
      invariant added == |MissingColumns(cols, BanColumns[..i])|
    {
      var c := BanColumns[i];
      assert BanColumns[..i + 1][..i] == BanColumns[..i];
      if c.name !in names {
        BanColumnsDistinct();
        MissingStaysFree(cols, BanColumns, i);
        var r := AddColumn(after, c);
        after := r.value;
        added := added + 1;
      }
    }
    assert BanColumns[..|BanColumns|] == BanColumns;
  }

  /** After a run every ban column exists, the old columns come first and
      unchanged, and the count is the number of columns that were missing. */
  lemma MigrateAddsExactlyMissing(cols: seq<Column>)
    ensures var (after, added) := Migrate(cols);
            && (forall c :: c in BanColumns ==> HasColumn(after, c.name))
            && after[..|cols|] == cols
            && (forall c :: c in after[|cols|..] <==> c in BanColumns && !HasColumn(cols, c.name))
            && added == |after| - |cols|
  {
    var after := Migrate(cols).0;
    MissingColumnsExactly(cols, BanColumns);
    forall c | c in BanColumns ensures HasColumn(after, c.name) {
      if HasColumn(cols, c.name) {
        var i :| 0 <= i < |cols| && Names(cols)[i] == c.name;
        assert Names(after)[i] == c.name;
      } else {
        assert c in after[|cols|..];
        var j :| |cols| <= j < |after| && after[j] == c;
        assert Names(after)[j] == c.name;
      }
    }
    assert after[|cols|..] == MissingColumns(cols, BanColumns);
  }

  /** Nothing is missing from a table that has every wanted name. */
  lemma {:induction false} NoneMissing(cols: seq<Column>, wanted: seq<Column>)
    requires forall c :: c in wanted ==> HasColumn(cols, c.name)
    ensures MissingColumns(cols, wanted) == []
    decreases |wanted|
  {
    if wanted != [] {
      assert wanted[|wanted| - 1] in wanted;
      NoneMissing(cols, wanted[..|wanted| - 1]);
    }
  }

  /** A second run adds nothing and reports 0. */
  lemma MigrateIdempotent(cols: seq<Column>)
    ensures Migrate(Migrate(cols).0) == (Migrate(cols).0, 0)
  {
    var after := Migrate(cols).0;
    MigrateAddsExactlyMissing(cols);
    NoneMissing(after, BanColumns);
    assert after + [] == after;
  }

  // -----------------------------------------------------------------------
  // migrate-ban-columns.js

  datatype Run =
    | Skipped(cols: seq<Column>)     // is_banned present: early return
    | Completed(cols: seq<Column>)
    | Failed(cols: seq<Column>)      // an ALTER refused; process.exit(1)

  /** The ALTERs one after another, stopping at the first refused one. */
  function AddAll(cols: seq<Column>, cs: seq<Column>): (r: Run)
    ensures !r.Skipped?
    ensures |cols| <= |r.cols| <= |cols| + |cs| && r.cols[..|cols|] == cols
    // a completed run appended every column, in order
    ensures r.Completed? ==> r.cols == cols + cs
    // a failed run appended the columns before the refused one, in order,
    // and the refused name is taken
    ensures r.Failed? ==>
      exists i :: 0 <= i < |cs| && r.cols == cols + cs[..i] && HasColumn(r.cols, cs[i].name)
    decreases |cs|
  {
    if cs == [] then Completed(cols)
    else match AddColumn(cols, cs[0])
      case None =>
        assert cols + cs[..0] == cols;
        Failed(cols)
      case Some(next) =>
        var r := AddAll(next, cs[1..]);
        assert r.cols[..|cols|] == r.cols[..|next|][..|cols|];
        assert next + cs[1..] == cols + cs;
        if r.Failed? then StoppedShift(cols, cs, r.cols); r else r
  }

  /** A stop inside `cs[1..]`, after `cs[0]` went in, is a stop inside `cs`. */
  lemma StoppedShift(cols: seq<Column>, cs: seq<Column>, out: seq<Column>)
    requires |cs| > 0
    requires exists j :: 0 <= j < |cs| - 1 && out == (cols + [cs[0]]) + cs[1..][..j]
                         && HasColumn(out, cs[1..][j].name)
    ensures exists i :: 0 <= i < |cs| && out == cols + cs[..i] && HasColumn(out, cs[i].name)
  {
    var j :| 0 <= j < |cs| - 1 && out == (cols + [cs[0]]) + cs[1..][..j] && HasColumn(out, cs[1..][j].name);
    assert (cols + [cs[0]]) + cs[1..][..j] == cols + cs[..j + 1];
    assert cs[1..][j] == cs[j + 1];
  }

  /** A column list that names a column already in the table fails, whatever
      comes before it. */
  lemma {:induction false} AddAllFailsOnPresent(cols: seq<Column>, cs: seq<Column>, n: string)
    requires HasColumn(cols, n)
    requires exists c :: c in cs && c.name == n
    ensures AddAll(cols, cs).Failed?
    decreases |cs|
  {
    if cs[0].name != n && AddColumn(cols, cs[0]).Some? {
      var next := cols + [cs[0]];
      NamesAppend(cols, cs[0]);
      assert HasColumn(next, n);
      var c :| c in cs && c.name == n;
      assert c in cs[1..];
      AddAllFailsOnPresent(next, cs[1..], n);
    }
  }

  function MigrateBanColumns(cols: seq<Column>): (r: Run) {
    if HasColumn(cols, "is_banned") then Skipped(cols) else AddAll(cols, BanColumns)
  }

  /** With `is_banned` present nothing is added, even if other ban columns
      are missing. */
  lemma BanMigrationKeyedOnFlag(cols: seq<Column>)
    requires HasColumn(cols, "is_banned")
    ensures MigrateBanColumns(cols) == Skipped(cols)
  {
  }

  /** On a table with none of the four names, all four are appended in order. */
  lemma BanMigrationAddsAllFour(cols: seq<Column>)
    requires forall c :: c in BanColumns ==> !HasColumn(cols, c.name)
    ensures MigrateBanColumns(cols) == Completed(cols + BanColumns)
  {
    var b := BanColumns;
    var c1 := cols + [b[0]];
    var c2 := c1 + [b[1]];
    var c3 := c2 + [b[2]];
    NamesAppend(cols, b[0]);
    NamesAppend(c1, b[1]);
    NamesAppend(c2, b[2]);
    assert AddColumn(cols, b[0]) == Some(c1);
    assert AddColumn(c1, b[1]) == Some(c2);
    assert AddColumn(c2, b[2]) == Some(c3);
    NamesAppend(c3, b[3]);
    assert AddColumn(c3, b[3]) == Some(c3 + [b[3]]);
    assert b[1..][1..][1..][1..] == [];
    assert c3 + [b[3]] == cols + b;
  }

  /** Without `is_banned` but with `ban_reason` already there, the script adds
      `is_banned`, is refused on `ban_reason` and exits with an error, while
      migrate-db.js on the same table completes with every column present. */
  lemma BanMigrationFailsOnPartialTable(cols: seq<Column>)
    requires !HasColumn(cols, "is_banned") && HasColumn(cols, "ban_reason")
    ensures MigrateBanColumns(cols) == Failed(cols + [BanColumns[0]])
    ensures forall c :: c in BanColumns ==> HasColumn(Migrate(cols).0, c.name)
  {
    var b := BanColumns;
    NamesAppend(cols, b[0]);
    assert AddColumn(cols, b[0]) == Some(cols + [b[0]]);
    assert AddColumn(cols + [b[0]], b[1]) == None;
    MigrateAddsExactlyMissing(cols);
  }

  /** Without `is_banned`, any other ban column already there makes the
      script fail, after it has added `is_banned`. */
  lemma BanMigrationFailsOnAnyPartialTable(cols: seq<Column>, i: nat)
    requires !HasColumn(cols, "is_banned")
    requires 1 <= i < |BanColumns| && HasColumn(cols, BanColumns[i].name)
    ensures var r := MigrateBanColumns(cols);
            r.Failed? && |r.cols| > |cols| && r.cols[|cols|] == BanColumns[0]
  {
    var b := BanColumns;
    var next := cols + [b[0]];
    NamesAppend(cols, b[0]);
    assert AddColumn(cols, b[0]) == Some(next);
    assert HasColumn(next, b[i].name);
    assert b[i] in b[1..];
    AddAllFailsOnPresent(next, b[1..], b[i].name);
    var r := AddAll(next, b[1..]);
    assert r.cols[..|next|] == next;
    assert MigrateBanColumns(cols) == r;
  }

  /** The users table as `initDb` creates it already has the four columns,
      so both scripts leave it alone. */
  const InitDbUserColumns: seq<Column> := [
    Column("id", "INTEGER PRIMARY KEY AUTOINCREMENT"),
    Column("email", "TEXT NOT NULL UNIQUE"),
    Column("password", "TEXT NOT NULL"),
    Column("name", "TEXT NOT NULL"),
    Column("role", "TEXT NOT NULL DEFAULT 'user' CHECK(role IN ('admin', 'user'))"),
    Column("is_banned", "BOOLEAN DEFAULT 0"),
    Column("ban_reason", "TEXT"),
    Column("banned_until", "DATETIME"),
    Column("banned_by", "INTEGER"),
    Column("created_at", "DATETIME DEFAULT CURRENT_TIMESTAMP"),
    Column("updated_at", "DATETIME DEFAULT CURRENT_TIMESTAMP")
  ]

  lemma FreshSchemaNeedsNoMigration()
    ensures Migrate(InitDbUserColumns) == (InitDbUserColumns, 0)
    ensures MigrateBanColumns(InitDbUserColumns) == Skipped(InitDbUserColumns)
  {
    var names := Names(InitDbUserColumns);
    assert names[5] == "is_banned" && names[6] == "ban_reason";
    assert names[7] == "banned_until" && names[8] == "banned_by";
    assert forall c :: c in BanColumns ==> c.name in {"is_banned", "ban_reason", "banned_until", "banned_by"};
    NoneMissing(InitDbUserColumns, BanColumns);
    assert InitDbUserColumns + [] == InitDbUserColumns;
  }
}

=== FILE: schema.dfy ===
/** lib/db.ts: the constraints `initDb` declares on `users`, `categories`
    and `transactions`, the default-category seeding, and what the foreign
    keys (with `PRAGMA foreign_keys = ON`) do on insert and delete.

    Categories and transactions are keyed by their integer primary key;
    users stay a sequence in rowid order (see the Users module). Each
    `AUTOINCREMENT` table has a counter (`sqlite_sequence`) that every new id
    exceeds. Budget limits and amounts are REAL in the schema; the limits
    here are whole numbers and are kept as integers. */
module Schema {
  import opened Common
  import opened Users

  datatype CategoryKind = Income | Expense | Other   // CHECK(type IN ('income', 'expense', 'other'))

  datatype Category = Category(userId: int, name: string, kind: CategoryKind, budgetLimit: int)

  datatype Transaction = Transaction(userId: int, categoryId: int, amount: real,
                                     description: Option<string>, date: string)

  datatype Db = Db(
    users: Table,
    categories: map<int, Category>,
    transactions: map<int, Transaction>,
    userSeq: int,
    categorySeq: int,
    transactionSeq: int)

  /** Some row has this id. */
  ghost predicate HasUser(users: Table, id: int) {
    exists i :: 0 <= i < |users| && users[i].id == id
  }

  /** The constraints on `users`: the rowid order, `UNIQUE(email)`, the
      AUTOINCREMENT counter, and `FOREIGN KEY (banned_by) REFERENCES users(id)`. */
  ghost predicate UsersValid(users: Table, userSeq: int) {
    && IdsAscending(users)
    && EmailsUnique(users)
    && (forall i :: 0 <= i < |users| ==> users[i].id <= userSeq)
    && (forall i :: 0 <= i < |users| && users[i].bannedBy.Some? ==> HasUser(users, users[i].bannedBy.value))
  }

  /** `UNIQUE(user_id, name)` on categories. */
  ghost predicate CategoryNamesUnique(cs: map<int, Category>) {
    forall a, b :: a in cs && b in cs && a != b ==>
      cs[a].userId != cs[b].userId || cs[a].name != cs[b].name
  }

  /** The constraints on `categories`: the counter, `UNIQUE(user_id, name)`
      and the foreign key to `users`. */
  ghost predicate CategoriesValid(users: Table, cs: map<int, Category>, categorySeq: int) {
    && (forall c :: c in cs ==> c <= categorySeq)
    && CategoryNamesUnique(cs)
    && (forall c :: c in cs ==> HasUser(users, cs[c].userId))
  }

  /** The two foreign keys of `transactions`. */
  ghost predicate TransactionsValid(users: Table, cs: map<int, Category>, ts: map<int, Transaction>) {
    && (forall t :: t in ts ==> HasUser(users, ts[t].userId))
    && (forall t :: t in ts ==> ts[t].categoryId in cs)
  }

  /** Every constraint `initDb` declares, plus the AUTOINCREMENT counters. */
  ghost predicate Valid(db: Db) {
    && UsersValid(db.users, db.userSeq)
    && CategoriesValid(db.users, db.categories, db.categorySeq)
    && TransactionsValid(db.users, db.categories, db.transactions)
    && (forall t :: t in db.transactions ==> t <= db.transactionSeq)
  }

  // -----------------------------------------------------------------------
  // Inserting categories

  datatype CategoryDef = CategoryDef(name: string, kind: CategoryKind, budgetLimit: int)

  predicate NameTaken(cs: map<int, Category>, userId: int, name: string) {
    exists c :: c in cs && cs[c].userId == userId && cs[c].name == name
  }

  /** One `INSERT INTO categories`: refused by the foreign key when the user
      does not exist, and by `UNIQUE(user_id, name)` when the name is taken. */
  function InsertCategory(db: Db, userId: int, def: CategoryDef): (r: Option<Db>)
    ensures r.Some? <==> Find(db.users, IdIs(userId)).Some? && !NameTaken(db.categories, userId, def.name)
    ensures r.Some? ==> r.value == db.(categories := db.categories[db.categorySeq + 1 :=
                           Category(userId, def.name, def.kind, def.budgetLimit)],
                                        categorySeq := db.categorySeq + 1)
  {
    if Find(db.users, IdIs(userId)).None? || NameTaken(db.categories, userId, def.name) then None
    else
      var id := db.categorySeq + 1;
      Some(db.(categories := db.categories[id := Category(userId, def.name, def.kind, def.budgetLimit)],
               categorySeq := id))
  }

  lemma InsertCategoryKeepsValid(db: Db, userId: int, def: CategoryDef)
    requires Valid(db)
    requires InsertCategory(db, userId, def).Some?
    ensures Valid(InsertCategory(db, userId, def).value)
  {
    var db1 := InsertCategory(db, userId, def).value;
    var id := db.categorySeq + 1;
    var k := Find(db.users, IdIs(userId)).value;
    assert db.users[k].id == userId;
    forall a, b | a in db1.categories && b in db1.categories && a != b
      ensures db1.categories[a].userId != db1.categories[b].userId
              || db1.categories[a].name != db1.categories[b].name
    {
      if a == id || b == id {
        var other := if a == id then b else a;
        assert other in db.categories;
      }
    }
  }

  /** The inserts run one after another outside any transaction: the first
      refused insert throws, and the rows inserted before it stay. */
  function InsertCategories(db: Db, userId: int, defs: seq<CategoryDef>): (r: (Db, bool))
    ensures r.0.users == db.users && r.0.transactions == db.transactions && r.0.userSeq == db.userSeq
    ensures r.0.transactionSeq == db.transactionSeq
    ensures db.categorySeq <= r.0.categorySeq <= db.categorySeq + |defs|
    ensures r.1 ==> r.0.categorySeq == db.categorySeq + |defs|
    ensures forall c :: c in r.0.categories ==> c in db.categories || db.categorySeq < c <= r.0.categorySeq
    ensures (forall c :: c in db.categories ==> c <= db.categorySeq) ==>
              forall c :: c in db.categories ==> c in r.0.categories && r.0.categories[c] == db.categories[c]
    decreases |defs|
  {
    if defs == [] then (db, true)
    else match InsertCategory(db, userId, defs[0])
      case None => (db, false)
      case Some(db') => InsertCategories(db', userId, defs[1..])
  }

  predicate DistinctNames(defs: seq<CategoryDef>) {
    forall i, j :: 0 <= i < j < |defs| ==> defs[i].name != defs[j].name
  }

  /** A name the user does not own stays free when another name is inserted. */
  lemma NameStillFree(db: Db, userId: int, def: CategoryDef, name: string)
    requires InsertCategory(db, userId, def).Some?
    requires name != def.name && !NameTaken(db.categories, userId, name)
    ensures !NameTaken(InsertCategory(db, userId, def).value.categories, userId, name)
  {
    var cs := InsertCategory(db, userId, def).value.categories;
    forall c | c in cs && cs[c].userId == userId ensures cs[c].name != name {
      if c != db.categorySeq + 1 {
        assert c in db.categories;
      }
    }
  }

  /** Each insert keeps the constraints, so a batch does too, however far
      it gets. */
  lemma {:induction false} InsertCategoriesKeepsValid(db: Db, userId: int, defs: seq<CategoryDef>)
    requires Valid(db)
    ensures Valid(InsertCategories(db, userId, defs).0)
    decreases |defs|
  {
    if defs != [] && InsertCategory(db, userId, defs[0]).Some? {
      InsertCategoryKeepsValid(db, userId, defs[0]);
      InsertCategoriesKeepsValid(InsertCategory(db, userId, defs[0]).value, userId, defs[1..]);
    }
  }

  /** For an existing user who owns none of the names, a list of distinct
      names is inserted completely. */
  lemma {:induction false} InsertCategoriesSucceed(db: Db, userId: int, defs: seq<CategoryDef>)
    requires Find(db.users, IdIs(userId)).Some?
    requires DistinctNames(defs)
    requires forall i :: 0 <= i < |defs| ==> !NameTaken(db.categories, userId, defs[i].name)
    ensures InsertCategories(db, userId, defs).1
    decreases |defs|
  {
    if defs != [] {
      var db1 := InsertCategory(db, userId, defs[0]).value;
      forall i | 0 <= i < |defs[1..]|
        ensures !NameTaken(db1.categories, userId, defs[1..][i].name)
      {
        assert defs[1..][i] == defs[i + 1];
        NameStillFree(db, userId, defs[0], defs[i + 1].name);
      }
      assert DistinctNames(defs[1..]) by {
        forall i, j | 0 <= i < j < |defs[1..]| ensures defs[1..][i].name != defs[1..][j].name {
          assert defs[1..][i] == defs[i + 1] && defs[1..][j] == defs[j + 1];
        }
      }
      InsertCategoriesSucceed(db1, userId, defs[1..]);
    }
  }

  /** Entry `i` of `defs` sits at category id `base + 1 + i`, owned by `userId`. */
  predicate Placed(cs: map<int, Category>, base: int, userId: int, defs: seq<CategoryDef>, i: nat)
    requires i < |defs|
  {
    base + 1 + i in cs && cs[base + 1 + i] == Category(userId, defs[i].name, defs[i].kind, defs[i].budgetLimit)
  }

  /** The first entry of a batch keeps the id its own insert gave it. */
  lemma FirstPlaced(db: Db, userId: int, defs: seq<CategoryDef>)
    requires forall c :: c in db.categories ==> c <= db.categorySeq
    requires defs != [] && InsertCategory(db, userId, defs[0]).Some?
    ensures Placed(InsertCategories(db, userId, defs).0.categories, db.categorySeq, userId, defs, 0)
  {
    var db1 := InsertCategory(db, userId, defs[0]).value;
    assert forall c :: c in db1.categories ==> c <= db1.categorySeq;
    assert db.categorySeq + 1 in db1.categories;
    assert InsertCategories(db, userId, defs) == InsertCategories(db1, userId, defs[1..]);
  }

  /** Placement of a batch follows from the first entry and the rest placed
      one id further on. */
  lemma PlacedShift(cs: map<int, Category>, base: int, next: int, userId: int,
                    defs: seq<CategoryDef>, tail: seq<CategoryDef>)
    requires defs != [] && tail == defs[1..] && next == base + 1
    requires Placed(cs, base, userId, defs, 0)
    requires forall i :: 0 <= i < |tail| ==> Placed(cs, next, userId, tail, i)
    ensures forall i :: 0 <= i < |defs| ==> Placed(cs, base, userId, defs, i)
  {
    forall i | 1 <= i < |defs| ensures Placed(cs, base, userId, defs, i) {
      assert Placed(cs, next, userId, tail, i - 1);
      assert tail[i - 1] == defs[i];
    }
  }

  /** A complete batch puts entry `i` at category id `categorySeq + 1 + i`. */
  lemma {:induction false} InsertCategoriesPlacement(db: Db, userId: int, defs: seq<CategoryDef>)
    requires forall c :: c in db.categories ==> c <= db.categorySeq
    requires InsertCategories(db, userId, defs).1
    ensures forall i :: 0 <= i < |defs| ==>
              Placed(InsertCategories(db, userId, defs).0.categories, db.categorySeq, userId, defs, i)
    decreases |defs|
  {
    if defs != [] {
      var o := InsertCategory(db, userId, defs[0]);
      assert o.Some?;
      var db1 := o.value;
      assert forall c :: c in db1.categories ==> c <= db1.categorySeq;
      var rest := InsertCategories(db1, userId, defs[1..]);
      assert InsertCategories(db, userId, defs) == rest;
      InsertCategoriesPlacement(db1, userId, defs[1..]);
      FirstPlaced(db, userId, defs);
      PlacedShift(rest.0.categories, db.categorySeq, db1.categorySeq, userId, defs, defs[1..]);
    }
  }

  /** A quick sufficient test that two names differ: their lengths or their
      first letters do. */
  predicate PlainlyDiffer(a: string, b: string) {
    |a| != |b| || (|a| > 0 && a[0] != b[0])
  }

  /** No entry from `from` on has this name, found by a scan. */
  function NameAbsent(name: string, defs: seq<CategoryDef>, from: nat): bool
    decreases |defs| - from
  {
    from >= |defs| || (PlainlyDiffer(defs[from].name, name) && NameAbsent(name, defs, from + 1))
  }

  function AllDistinct(defs: seq<CategoryDef>, from: nat): bool
    decreases |defs| - from
  {
    from >= |defs| || (NameAbsent(defs[from].name, defs, from + 1) && AllDistinct(defs, from + 1))
  }

  lemma {:induction false} NameAbsentSound(name: string, defs: seq<CategoryDef>, from: nat)
    requires NameAbsent(name, defs, from)
    ensures forall j :: from <= j < |defs| ==> defs[j].name != name
    decreases |defs| - from
  {
    if from < |defs| {
      NameAbsentSound(name, defs, from + 1);
    }
  }

  /** The scan decides `DistinctNames`. */
  lemma {:induction false} AllDistinctSound(defs: seq<CategoryDef>, from: nat)
    requires AllDistinct(defs, from)
    ensures forall i, j :: from <= i < j < |defs| ==> defs[i].name != defs[j].name
    decreases |defs| - from
  {
    if from < |defs| {
      NameAbsentSound(defs[from].name, defs, from + 1);
      AllDistinctSound(defs, from + 1);
    }
  }

  // -----------------------------------------------------------------------
  // createDefaultCategories (lib/db.ts): nine rows. The register route does
  // not call it; it inserts its own twelve (see the Accounts module).

  const SeedDefaults: seq<CategoryDef> := [
    CategoryDef("Food", Expense, 600),
    CategoryDef("Entertainment", Expense, 200),
    CategoryDef("General Expense", Expense, 300),
    CategoryDef("Groceries", Expense, 500),
    CategoryDef("Utilities", Expense, 200),
    CategoryDef("Transportation", Expense, 150),
    CategoryDef("Healthcare", Expense, 200),
    CategoryDef("Salary", Income, 0),
    CategoryDef("Freelance", Income, 0)
  ]

  /** The budget limits of the entries of one kind from `from` on, in list order. */
  function LimitsOf(defs: seq<CategoryDef>, kind: CategoryKind, from: nat): seq<int>
    decreases |defs| - from
  {
    if from >= |defs| then []
    else (if defs[from].kind == kind then [defs[from].budgetLimit] else []) + LimitsOf(defs, kind, from + 1)
  }

  function CreateDefaultCategories(db: Db, userId: int): (r: (Db, bool))
    ensures r.0.users == db.users && r.0.transactions == db.transactions
    ensures r.1 ==> r.0.categorySeq == db.categorySeq + 9
  {
    InsertCategories(db, userId, SeedDefaults)
  }

  /** The nine seeded names are distinct. */
  lemma SeedDefaultsDistinct()
    ensures |SeedDefaults| == 9 && DistinctNames(SeedDefaults)
  {
    AllDistinctSound(SeedDefaults, 0);
  }

  /** Seven expense rows with the limits 600, 200, 300, 500, 200, 150, 200
      in order, and two income rows with limit 0. */
  lemma SeedDefaultsLimits()
    ensures LimitsOf(SeedDefaults, Expense, 0) == [600, 200, 300, 500, 200, 150, 200]
    ensures LimitsOf(SeedDefaults, Income, 0) == [0, 0]
    ensures LimitsOf(SeedDefaults, Other, 0) == []
  {
  }

  /** For a user who has no categories yet, seeding succeeds, adds the nine
      rows in order and keeps every constraint. */
  lemma SeedingFreshUser(db: Db, userId: int)
    requires Valid(db)
    requires Find(db.users, IdIs(userId)).Some?
    requires forall c :: c in db.categories ==> db.categories[c].userId != userId
    ensures var (db', ok) := CreateDefaultCategories(db, userId);
            && ok && Valid(db')
            && forall i :: 0 <= i < |SeedDefaults| ==> Placed(db'.categories, db.categorySeq, userId, SeedDefaults, i)
  {
    SeedDefaultsDistinct();
    InsertCategoriesSucceed(db, userId, SeedDefaults);
    InsertCategoriesKeepsValid(db, userId, SeedDefaults);
    InsertCategoriesPlacement(db, userId, SeedDefaults);
  }

  // -----------------------------------------------------------------------
  // Deleting. No core route deletes users or categories; this is what the
  // schema's foreign keys make of a DELETE.

  datatype Deleted = Deleted(db: Db) | Refused   // Refused: a foreign key forbids it

  /** The table without row `k`. */
  function RemoveAt(users: Table, k: nat): (r: Table)
    requires k < |users|
    ensures |r| == |users| - 1
    ensures forall j :: 0 <= j < k ==> r[j] == users[j]
    ensures forall j :: k <= j < |r| ==> r[j] == users[j + 1]
  {
    users[..k] + users[k + 1..]
  }

  /** Another row names this user in `banned_by`. */
  predicate BannedByOther(users: Table, id: int) {
    exists i :: 0 <= i < |users| && users[i].id != id && users[i].bannedBy == Some(id)
  }

  /** `DELETE FROM users WHERE id = ?`: the user's categories and
      transactions go with it (ON DELETE CASCADE), and so do the transactions
      of the deleted categories. `banned_by` has no ON DELETE action, so the
      delete is refused while another row names this user as its banner. */
  function DeleteUser(db: Db, id: int): (r: Deleted)
    ensures r.Refused? <==> (Find(db.users, IdIs(id)).Some? && BannedByOther(db.users, id))
  {
    match Find(db.users, IdIs(id))
    case None => Deleted(db)
    case Some(k) =>
      if BannedByOther(db.users, id) then Refused
      else
        var cats := map c | c in db.categories && db.categories[c].userId != id :: db.categories[c];
        var txs := map t | t in db.transactions && db.transactions[t].userId != id
                           && db.transactions[t].categoryId in cats :: db.transactions[t];
        Deleted(db.(users := RemoveAt(db.users, k), categories := cats, transactions := txs))
  }

  /** Removing the row with id `id` keeps the users' constraints when no
      other row was banned by it, and exactly that id disappears. */
  lemma RemoveUserKeepsValid(users: Table, userSeq: int, k: nat)
    requires UsersValid(users, userSeq)
    requires k < |users| && !BannedByOther(users, users[k].id)
    ensures UsersValid(RemoveAt(users, k), userSeq)
    ensures forall x :: HasUser(RemoveAt(users, k), x) <==> HasUser(users, x) && x != users[k].id
  {
    var id := users[k].id;
    var r := RemoveAt(users, k);
    forall x ensures HasUser(r, x) <==> HasUser(users, x) && x != id {
      if HasUser(r, x) {
        var j :| 0 <= j < |r| && r[j].id == x;
        if j < k { assert users[j].id < users[k].id; } else { assert users[k].id < users[j + 1].id; }
      }
      if HasUser(users, x) && x != id {
        var i :| 0 <= i < |users| && users[i].id == x;
        if i < k { assert r[i].id == x; } else { assert r[i - 1].id == x; }
      }
    }
    forall i | 0 <= i < |r| && r[i].bannedBy.Some? ensures HasUser(r, r[i].bannedBy.value) {
      var src := if i < k then i else i + 1;
      assert r[i] == users[src];
      assert users[src].id != id by {
        if src < k { assert users[src].id < users[k].id; } else { assert users[k].id < users[src].id; }
      }
    }
  }

  /** After a delete nothing refers to the user any more and the
      constraints still hold. Every other user stays; every category of
      another user stays unchanged; a transaction stays, unchanged, exactly
      when it is another user's and its category stays, so another user's
      transaction filed under one of this user's categories goes with that
      category. */
  lemma DeleteUserCascades(db: Db, id: int)
    requires Valid(db)
    requires DeleteUser(db, id).Deleted?
    ensures var db' := DeleteUser(db, id).db;
            && Valid(db')
            && !HasUser(db'.users, id)
            && (forall x :: HasUser(db'.users, x) <==> HasUser(db.users, x) && x != id)
            && (forall c :: c in db'.categories ==> db'.categories[c].userId != id)
            && (forall t :: t in db'.transactions ==> db'.transactions[t].userId != id)
            && (forall c :: c in db'.categories <==> c in db.categories && db.categories[c].userId != id)
            && (forall c :: c in db'.categories ==> db'.categories[c] == db.categories[c])
            && (forall t :: t in db'.transactions <==>
                  && t in db.transactions && db.transactions[t].userId != id
                  && db.transactions[t].categoryId in db'.categories)
            && (forall t :: t in db'.transactions ==> db'.transactions[t] == db.transactions[t])
            && db'.userSeq == db.userSeq && db'.categorySeq == db.categorySeq
            && db'.transactionSeq == db.transactionSeq
  {
    match Find(db.users, IdIs(id))
    case None =>
    case Some(k) => RemoveUserKeepsValid(db.users, db.userSeq, k);
  }

  /** An admin who once banned someone cannot be deleted while that row still
      names them, and a lapsed ban's auto-clear does not lift this, because it
      keeps `banned_by`. */
  lemma BannerCannotBeDeleted(db: Db, admin: int, i: nat)
    requires Valid(db)
    requires i < |db.users| && db.users[i].id != admin && db.users[i].bannedBy == Some(admin)
    ensures DeleteUser(db, admin).Refused?
    ensures DeleteUser(db.(users := UpdateWhereId(db.users, db.users[i].id, ClearExpiredBan)), admin).Refused?
  {
    assert HasUser(db.users, admin);
    var users' := UpdateWhereId(db.users, db.users[i].id, ClearExpiredBan);
    FindAfterClear(db.users, db.users[i].id, IdIs(admin));
    assert users'[i].bannedBy == Some(admin) && users'[i].id != admin;
  }

  /** `DELETE FROM categories WHERE id = ?`: its transactions go with it,
      and nothing else changes. */
  function DeleteCategory(db: Db, cid: int): (r: Db)
    ensures cid !in r.categories
    ensures forall c :: c in r.categories <==> c in db.categories && c != cid
    ensures forall c :: c in r.categories ==> r.categories[c] == db.categories[c]
    ensures forall t :: t in r.transactions ==> r.transactions[t].categoryId != cid
    ensures forall t :: t in db.transactions && db.transactions[t].categoryId != cid ==> t in r.transactions
    ensures forall t :: t in r.transactions ==> t in db.transactions && r.transactions[t] == db.transactions[t]
    ensures r.users == db.users
    ensures r.userSeq == db.userSeq && r.categorySeq == db.categorySeq && r.transactionSeq == db.transactionSeq
  {
    db.(categories := db.categories - {cid},
        transactions := map t | t in db.transactions && db.transactions[t].categoryId != cid :: db.transactions[t])
  }

  lemma DeleteCategoryKeepsValid(db: Db, cid: int)
    requires Valid(db)
    ensures Valid(DeleteCategory(db, cid))
  {
  }
}

=== FILE: transactions.dfy ===
/** app/api/transactions/route.ts: the filter builders of `getHandler` and
    `deleteHandler`, how the prepared statement binds their parameters,
    and the required-field check of `postHandler`.

    A condition is kept as a value of `Cond`; `Render` gives its SQL text.
    better-sqlite3 refuses to run a statement whose number of bound values
    differs from its number of `?` placeholders, and the route's `catch`
    turns that into a 500. How SQLite evaluates `LIKE`, `strftime` and the
    REAL comparisons is not modelled: `holds` stands for it. The user-id
    condition is evaluated here, as an integer column compared with the
    decimal text of the session id. */
module Transactions {
  import opened Common
  import opened Users
  import opened Auth
  import opened Schema

  /** `searchParams.get(...)` for the six filter parameters. */
  datatype Query = Query(month: Option<string>, year: Option<string>, description: Option<string>,
                         categoryId: Option<string>, amountOperator: Option<string>, amount: Option<string>)

  const NoFilters := Query(None, None, None, None, None, None)

  datatype Cmp = Greater | Less | Equal

  datatype Cond =
    | UserIs              // user_id = ?
    | YearMonth           // strftime('%Y', date) = ? AND strftime('%m', date) = ?
    | DescriptionLike     // description LIKE ?
    | CategoryIs          // category_id = ?
    | AmountCmp(op: Cmp)  // amount > ? | amount < ? | amount = ?

  /** The number of `?` in the condition's text. */
  function Arity(c: Cond): nat {
    if c == YearMonth then 2 else 1
  }

  function TotalArity(cs: seq<Cond>): nat
    decreases |cs|
  {
    if cs == [] then 0 else Arity(cs[0]) + TotalArity(cs[1..])
  }

  lemma {:induction false} TotalArityAppend(a: seq<Cond>, b: seq<Cond>)
    ensures TotalArity(a + b) == TotalArity(a) + TotalArity(b)
    decreases |a|
  {
    if a != [] {
      assert (a + b)[0] == a[0];
      assert (a + b)[1..] == a[1..] + b;
      TotalArityAppend(a[1..], b);
    } else {
      assert a + b == b;
    }
  }

  /** `amountOperator` as the three comparisons it recognises. */
  function OperatorOf(op: string): (r: Option<Cmp>)
    ensures r.Some? <==> op in {"greater", "less", "equal"}
  {
    if op == "greater" then Some(Greater)
    else if op == "less" then Some(Less)
    else if op == "equal" then Some(Equal)
    else None
  }

  /** `s.padStart(2, "0")`: zeros in front until the JavaScript length (in
      UTF-16 units) is 2; a string already that long is returned as is. */
  function PadStart2(s: string): (r: string)
    ensures Utf16Length(r) == if Utf16Length(s) >= 2 then Utf16Length(s) else 2
    ensures |s| <= |r| && r[|r| - |s|..] == s
    ensures forall i :: 0 <= i < |r| - |s| ==> r[i] == '0'
  {
    var n := Utf16Length(s);
    if n >= 2 then s
    else if n == 1 then
      Utf16LengthAppend("0", s);
      "0" + s
    else "00"
  }

  // -----------------------------------------------------------------------
  // Building the filters

  datatype Filters = Filters(conds: seq<Cond>, params: seq<string>)

  const NoPart := Filters([], [])

  /** What `if (month && year)` pushes. */
  function MonthPart(q: Query): Filters {
    if Present(q.month) && Present(q.year)
    then Filters([YearMonth], [q.year.value, PadStart2(q.month.value)]) else NoPart
  }

  /** What `if (description)` pushes. */
  function DescriptionPart(q: Query): Filters {
    if Present(q.description) then Filters([DescriptionLike], ["%" + q.description.value + "%"]) else NoPart
  }

  /** What `if (categoryId)` pushes. */
  function CategoryPart(q: Query): Filters {
    if Present(q.categoryId) then Filters([CategoryIs], [q.categoryId.value]) else NoPart
  }

  /** What `if (amount && amountOperator)` pushes: the value whatever the
      operator is, a condition only for a recognised one. */
  function AmountPart(q: Query): Filters {
    if Present(q.amount) && Present(q.amountOperator) then
      match OperatorOf(q.amountOperator.value)
      case Some(op) => Filters([AmountCmp(op)], [q.amount.value])
      case None => Filters([], [q.amount.value])
    else NoPart
  }

  function Then(a: Filters, b: Filters): Filters {
    Filters(a.conds + b.conds, a.params + b.params)
  }

  /** The filters both handlers build, in the order they push them. */
  function BuildFilters(q: Query): Filters {
    Then(Then(Then(MonthPart(q), DescriptionPart(q)), CategoryPart(q)), AmountPart(q))
  }

  /** An unknown operator comes with an amount: the case the route mishandles. */
  predicate StrayAmount(q: Query) {
    Present(q.amount) && Present(q.amountOperator) && OperatorOf(q.amountOperator.value).None?
  }

  /** The filters with the amount bound only when its condition is pushed. */
  function BuildFiltersChecked(q: Query): Filters {
    var f := BuildFilters(q);
    if StrayAmount(q) then Filters(f.conds, f.params[..|f.params| - 1]) else f
  }

  /** The conditions are the parts' conditions in push order. */
  lemma BuildFiltersConds(q: Query)
    ensures BuildFilters(q).conds
            == MonthPart(q).conds + DescriptionPart(q).conds + CategoryPart(q).conds + AmountPart(q).conds
    ensures BuildFilters(q).params
            == MonthPart(q).params + DescriptionPart(q).params + CategoryPart(q).params + AmountPart(q).params
  {
  }

  /** The parts after the month filter. */
  function RestParts(q: Query): Filters {
    Then(Then(DescriptionPart(q), CategoryPart(q)), AmountPart(q))
  }

  lemma ThenAssoc(m: Filters, d: Filters, c: Filters, a: Filters)
    ensures Then(Then(Then(m, d), c), a) == Then(m, Then(Then(d, c), a))
  {
    assert m.conds + d.conds + c.conds + a.conds == m.conds + (d.conds + c.conds + a.conds);
    assert m.params + d.params + c.params + a.params == m.params + (d.params + c.params + a.params);
  }

  lemma MonthFirst(q: Query)
    ensures BuildFilters(q).conds == MonthPart(q).conds + RestParts(q).conds
    ensures BuildFilters(q).params == MonthPart(q).params + RestParts(q).params
    ensures YearMonth !in RestParts(q).conds
  {
    ThenAssoc(MonthPart(q), DescriptionPart(q), CategoryPart(q), AmountPart(q));
    var d, c, a := DescriptionPart(q), CategoryPart(q), AmountPart(q);
    assert YearMonth !in d.conds && YearMonth !in c.conds && YearMonth !in a.conds;
    assert RestParts(q).conds == d.conds + c.conds + a.conds;
  }

  /** The month/year filter is there exactly when both are given; it comes
      first and binds the year, then the month padded to two digits. */
  lemma MonthFilter(q: Query)
    ensures YearMonth in BuildFilters(q).conds <==> Present(q.month) && Present(q.year)
    ensures Present(q.month) && Present(q.year) ==>
      && BuildFilters(q).conds[0] == YearMonth
      && BuildFilters(q).params[..2] == [q.year.value, PadStart2(q.month.value)]
  {
    MonthFirst(q);
    var m, rest := MonthPart(q), RestParts(q);
    if Present(q.month) && Present(q.year) {
      assert (m.params + rest.params)[..2] == m.params;
    }
  }

  /** The description filter binds `%description%`. */
  lemma DescriptionFilter(q: Query)
    ensures DescriptionLike in BuildFilters(q).conds <==> Present(q.description)
    ensures Present(q.description) ==> "%" + q.description.value + "%" in BuildFilters(q).params
  {
    BuildFiltersConds(q);
    if Present(q.description) {
      assert DescriptionPart(q).params[0] == "%" + q.description.value + "%";
    }
  }

  /** The category filter binds the raw id. */
  lemma CategoryFilter(q: Query)
    ensures CategoryIs in BuildFilters(q).conds <==> Present(q.categoryId)
    ensures Present(q.categoryId) ==> q.categoryId.value in BuildFilters(q).params
  {
    BuildFiltersConds(q);
    if Present(q.categoryId) {
      assert CategoryPart(q).params[0] == q.categoryId.value;
    }
  }

  /** The amount filter: a condition exactly for a recognised operator with
      both parameters present, with `>`, `<`, `=` for greater, less, equal. */
  lemma AmountFilter(q: Query, op: Cmp)
    ensures AmountCmp(op) in BuildFilters(q).conds <==>
      Present(q.amount) && Present(q.amountOperator) && OperatorOf(q.amountOperator.value) == Some(op)
  {
    BuildFiltersConds(q);
  }

  /** Chaining adds up the placeholders and the values. */
  lemma ThenArity(a: Filters, b: Filters)
    ensures TotalArity(Then(a, b).conds) == TotalArity(a.conds) + TotalArity(b.conds)
    ensures |Then(a, b).params| == |a.params| + |b.params|
  {
    TotalArityAppend(a.conds, b.conds);
  }

  /** A single condition has its own arity as total. */
  lemma SingleArity(c: Cond)
    ensures TotalArity([c]) == Arity(c)
  {
    assert [c][1..] == [];
  }

  /** Each of the first three parts binds exactly as many values as it has
      placeholders; the amount part does too, except for a stray amount. */
  lemma PartsArity(q: Query)
    ensures |MonthPart(q).params| == TotalArity(MonthPart(q).conds)
    ensures |DescriptionPart(q).params| == TotalArity(DescriptionPart(q).conds)
    ensures |CategoryPart(q).params| == TotalArity(CategoryPart(q).conds)
    ensures |AmountPart(q).params| == TotalArity(AmountPart(q).conds) + (if StrayAmount(q) then 1 else 0)
  {
    SingleArity(YearMonth);
    SingleArity(DescriptionLike);
    SingleArity(CategoryIs);
    if Present(q.amount) && Present(q.amountOperator) && OperatorOf(q.amountOperator.value).Some? {
      SingleArity(AmountCmp(OperatorOf(q.amountOperator.value).value));
    }
  }

  /** As written, the bound values match the placeholders exactly unless an
      amount comes with an operator outside greater/less/equal; then there
      is one value too many. */
  lemma {:induction false} BuildFiltersArity(q: Query)
    ensures |BuildFilters(q).params| == TotalArity(BuildFilters(q).conds) + (if StrayAmount(q) then 1 else 0)
  {
    var m, d, c, a := MonthPart(q), DescriptionPart(q), CategoryPart(q), AmountPart(q);
    PartsArity(q);
    ThenArity(m, d);
    ThenArity(Then(m, d), c);
    ThenArity(Then(Then(m, d), c), a);
  }

  /** Corrected: the values always match the placeholders, and nothing
      changes when the operator is recognised. */
  lemma BuildFiltersCheckedArity(q: Query)
    ensures |BuildFiltersChecked(q).params| == TotalArity(BuildFiltersChecked(q).conds)
    ensures !StrayAmount(q) ==> BuildFiltersChecked(q) == BuildFilters(q)
  {
    BuildFiltersArity(q);
  }

  // -----------------------------------------------------------------------
  // SQL text

  function Join(parts: seq<string>, sep: string): string
    decreases |parts|
  {
    if parts == [] then "" else if |parts| == 1 then parts[0] else parts[0] + sep + Join(parts[1..], sep)
  }

  /** The condition's text; `prefix` is "t." in the SELECT and "" in the DELETE. */
  function Render(c: Cond, prefix: string): string {
    match c
    case UserIs => prefix + "user_id = ?"
    case YearMonth => "strftime('%Y', " + prefix + "date) = ? AND strftime('%m', " + prefix + "date) = ?"
    case DescriptionLike => prefix + "description LIKE ?"
    case CategoryIs => prefix + "category_id = ?"
    case AmountCmp(Greater) => prefix + "amount > ?"
    case AmountCmp(Less) => prefix + "amount < ?"
    case AmountCmp(Equal) => prefix + "amount = ?"
  }

  function RenderAll(cs: seq<Cond>, prefix: string): (r: seq<string>)
    ensures |r| == |cs| && forall i :: 0 <= i < |cs| ==> r[i] == Render(cs[i], prefix)
  {
    seq(|cs|, i requires 0 <= i < |cs| => Render(cs[i], prefix))
  }

  const SelectBase := "SELECT t.*, c.name as category_name, c.type as category_type FROM transactions t JOIN categories c ON t.category_id = c.id WHERE t.user_id = ?"
  const OrderByNewest := " ORDER BY t.date DESC, t.created_at DESC"

  /** The GET statement: the fixed user condition, the filters joined with
      AND, newest first by date and then by creation time. */
  function SelectSql(cs: seq<Cond>): (sql: string)
    ensures cs == [] ==> sql == SelectBase + OrderByNewest
    ensures |sql| >= |SelectBase| + |OrderByNewest|
    ensures sql[..|SelectBase|] == SelectBase && sql[|sql| - |OrderByNewest|..] == OrderByNewest
  {
    SelectBase + (if cs != [] then " AND " + Join(RenderAll(cs, "t."), " AND ") else "") + OrderByNewest
  }

  /** The DELETE statement: no WHERE clause at all without filters. */
  function DeleteSql(cs: seq<Cond>): (sql: string)
    ensures cs == [] ==> sql == "DELETE FROM transactions"
    ensures cs != [] ==> |sql| > 31 && sql[..31] == "DELETE FROM transactions WHERE "
  {
    "DELETE FROM transactions" + (if cs != [] then " WHERE " + Join(RenderAll(cs, ""), " AND ") else "")
  }

  // -----------------------------------------------------------------------
  // Binding and evaluating

  /** The values each condition receives, in statement order. */
  function Bind(cs: seq<Cond>, params: seq<string>): (r: seq<(Cond, seq<string>)>)
    requires TotalArity(cs) == |params|
    ensures |r| == |cs| && forall i :: 0 <= i < |cs| ==> r[i].0 == cs[i] && |r[i].1| == Arity(cs[i])
    decreases |cs|
  {
    if cs == [] then []
    else
      var n := Arity(cs[0]);
      [(cs[0], params[..n])] + Bind(cs[1..], params[n..])
  }

  /** A condition on one row. The user condition compares the integer
      column with the decimal text; the rest is SQLite's business. */
  function Holds(c: Cond, args: seq<string>, t: Transaction,
                 holds: (Cond, seq<string>, Transaction) -> bool): bool {
    if c == UserIs then |args| == 1 && ParseInt(args[0]) == Some(t.userId)
    else holds(c, args, t)
  }

  predicate AllHold(bound: seq<(Cond, seq<string>)>, t: Transaction,
                    holds: (Cond, seq<string>, Transaction) -> bool) {
    forall i :: 0 <= i < |bound| ==> Holds(bound[i].0, bound[i].1, t, holds)
  }

  // -----------------------------------------------------------------------
  // GET

  datatype ListBody = ListError(error: string) | Listing(conds: seq<Cond>, params: seq<string>)

  /** `session?.user?.id`, when truthy. */
  function SessionId(session: Option<Session>): (r: Option<string>)
    ensures r.Some? <==> session.Some? && session.value.user.Some? && Present(session.value.user.value.id)
    ensures r.Some? ==> r == session.value.user.value.id
  {
    if session.Some? && session.value.user.Some? && Present(session.value.user.value.id)
    then session.value.user.value.id
    else None
  }

  /** The statement GET runs: the user condition first, bound to the
      session id, then the filters. `fails` is an error thrown by the
      database once the session is known. */
  function GetHandler(session: Option<Session>, q: Query, fails: bool): (r: Reply<ListBody>)
    ensures r.status in {200, 401, 500}
    ensures r.status == 401 <==> SessionId(session).None?
    // a thrown database error, or a statement SQLite refuses to bind
    ensures r.status == 500 <==> SessionId(session).Some? && (fails || StrayAmount(q))
    ensures r.status == 200 ==>
      && SessionId(session).Some?
      && r.body.Listing? && |r.body.conds| > 0 && |r.body.params| > 0
      && r.body.conds[0] == UserIs && r.body.params[0] == SessionId(session).value
      && TotalArity(r.body.conds) == |r.body.params|
    // the filters that follow are the builder's, unchanged
    ensures r.status == 200 ==>
      r.body == Listing([UserIs] + BuildFilters(q).conds, [SessionId(session).value] + BuildFilters(q).params)
  {
    BuildFiltersArity(q);
    match SessionId(session)
    case None => Reply(401, ListError("Unauthorized"))
    case Some(id) =>
      var f := BuildFilters(q);
      var conds := [UserIs] + f.conds;
      var params := [id] + f.params;
      assert TotalArity(conds) == 1 + TotalArity(f.conds);
      if fails || TotalArity(conds) != |params| then Reply(500, ListError("Failed to fetch transactions"))
      else Reply(200, Listing(conds, params))
  }

  /** Every row GET returns belongs to the session's user. */
  lemma GetOnlyOwnRows(session: Option<Session>, q: Query, fails: bool, t: Transaction,
                       holds: (Cond, seq<string>, Transaction) -> bool)
    requires GetHandler(session, q, fails).status == 200
    ensures var b := GetHandler(session, q, fails).body;
            AllHold(Bind(b.conds, b.params), t, holds) ==> ParseInt(SessionId(session).value) == Some(t.userId)
  {
    var b := GetHandler(session, q, fails).body;
    var bound := Bind(b.conds, b.params);
    assert bound[0] == (UserIs, b.params[..1]);
  }

  /** A listing for a month: after the user condition comes the month
      condition, binding the year and the padded month. */
  lemma GetFiltersByMonth(session: Option<Session>, q: Query, fails: bool)
    requires GetHandler(session, q, fails).status == 200
    requires Present(q.month) && Present(q.year)
    ensures var b := GetHandler(session, q, fails).body;
            && b.conds[..2] == [UserIs, YearMonth]
            && b.params[..3] == [SessionId(session).value, q.year.value, PadStart2(q.month.value)]
  {
    MonthFilter(q);
    var f := BuildFilters(q);
    var b := GetHandler(session, q, fails).body;
    assert b.conds[1] == f.conds[0];
    assert b.params[1..3] == f.params[..2];
  }

  // -----------------------------------------------------------------------
  // DELETE

  datatype DeleteBody = DeleteError(error: string) | DeleteDone(deletedCount: nat)

  datatype Deletion = Deletion(reply: Reply<DeleteBody>, transactions: map<int, Transaction>)

  /** The rows that survive a DELETE with these bound conditions. */
  function Survivors(ts: map<int, Transaction>, bound: seq<(Cond, seq<string>)>,
                     holds: (Cond, seq<string>, Transaction) -> bool): (r: map<int, Transaction>)
    ensures forall t :: t in r <==> t in ts && !AllHold(bound, ts[t], holds)
    ensures forall t :: t in r ==> r[t] == ts[t]
  {
    map t | t in ts && !AllHold(bound, ts[t], holds) :: ts[t]
  }

  /** A row every condition of `f` holds for, once its values are bound;
      values that do not fit the placeholders bind nothing. */
  predicate Matches(f: Filters, t: Transaction, holds: (Cond, seq<string>, Transaction) -> bool) {
    TotalArity(f.conds) == |f.params| && AllHold(Bind(f.conds, f.params), t, holds)
  }

  /** Runs the statement built from `conds` and `params`; `fails` is an
      error the database throws. */
  function RunDelete(ts: map<int, Transaction>, conds: seq<Cond>, params: seq<string>,
                     holds: (Cond, seq<string>, Transaction) -> bool, fails: bool): (r: Deletion)
    ensures r.reply.status in {200, 500}
    ensures r.reply.status == 500 <==> fails || TotalArity(conds) != |params|
    ensures r.reply.status == 500 ==> r.transactions == ts
    ensures r.reply.status == 200 ==> r.reply.body == DeleteDone(|ts.Keys - r.transactions.Keys|)
    // exactly the rows every bound condition holds for are removed
    ensures r.reply.status == 200 ==>
      forall k :: (k in r.transactions <==> k in ts && !Matches(Filters(conds, params), ts[k], holds))
                  && (k in r.transactions ==> r.transactions[k] == ts[k])
  {
    if fails || TotalArity(conds) != |params| then
      Deletion(Reply(500, DeleteError("Failed to delete transactions")), ts)
    else
      var kept := Survivors(ts, Bind(conds, params), holds);
      Deletion(Reply(200, DeleteDone(|ts.Keys - kept.Keys|)), kept)
  }

  /** As written: no session check and no user condition. */
  function DeleteHandler(ts: map<int, Transaction>, q: Query,
                         holds: (Cond, seq<string>, Transaction) -> bool, fails: bool): (r: Deletion)
    ensures r.reply.status in {200, 500}
    ensures r.reply.status == 200 <==> !fails && !StrayAmount(q)
    ensures r.reply.status == 500 ==> r.transactions == ts
    // whoever asks, every row of every user the filters match is removed
    ensures r.reply.status == 200 ==>
      forall k :: (k in r.transactions <==> k in ts && !Matches(BuildFilters(q), ts[k], holds))
                  && (k in r.transactions ==> r.transactions[k] == ts[k])
  {
    BuildFiltersArity(q);
    var f := BuildFilters(q);
    RunDelete(ts, f.conds, f.params, holds, fails)
  }

  /** As written: without filters every row of every user goes, whoever
      sends the request. */
  lemma DeleteWithoutFiltersTakesAll(ts: map<int, Transaction>, holds: (Cond, seq<string>, Transaction) -> bool)
    ensures DeleteHandler(ts, NoFilters, holds, false) == Deletion(Reply(200, DeleteDone(|ts.Keys|)), map[])
    ensures DeleteSql(BuildFilters(NoFilters).conds) == "DELETE FROM transactions"
  {
    var r := DeleteHandler(ts, NoFilters, holds, false);
    assert r.transactions.Keys == {};
    assert r.transactions == map[];
  }

  /** Binding a user condition in front of `cs` binds the session id to it
      and leaves the rest as they were. */
  lemma BindUserFirst(cs: seq<Cond>, params: seq<string>, id: string)
    requires TotalArity(cs) == |params|
    ensures TotalArity([UserIs] + cs) == |[id] + params|
    ensures Bind([UserIs] + cs, [id] + params) == [(UserIs, [id])] + Bind(cs, params)
  {
    var conds := [UserIs] + cs;
    var ps := [id] + params;
    assert conds[0] == UserIs && conds[1..] == cs;
    assert ps[..1] == [id] && ps[1..] == params;
  }

  lemma AllHoldUserFirst(id: string, bound: seq<(Cond, seq<string>)>,
                         holds: (Cond, seq<string>, Transaction) -> bool)
    ensures forall t :: AllHold([(UserIs, [id])] + bound, t, holds)
                        <==> ParseInt(id) == Some(t.userId) && AllHold(bound, t, holds)
  {
    var full := [(UserIs, [id])] + bound;
    forall t: Transaction | ParseInt(id) == Some(t.userId) && AllHold(bound, t, holds)
      ensures AllHold(full, t, holds)
    {
      forall i | 0 <= i < |full| ensures Holds(full[i].0, full[i].1, t, holds) {
        if i > 0 {
          assert full[i] == bound[i - 1];
        }
      }
    }
    forall t: Transaction | AllHold(full, t, holds)
      ensures ParseInt(id) == Some(t.userId) && AllHold(bound, t, holds)
    {
      assert Holds(full[0].0, full[0].1, t, holds);
      forall i | 0 <= i < |bound| ensures Holds(bound[i].0, bound[i].1, t, holds) {
        assert full[i + 1] == bound[i];
      }
    }
  }

  /** Corrected: 401 without a session, and the user condition first, as in
      GET. The checked filters bind no stray amount, so only a thrown
      database error answers 500. */
  function DeleteScoped(ts: map<int, Transaction>, session: Option<Session>, q: Query,
                        holds: (Cond, seq<string>, Transaction) -> bool, fails: bool): (r: Deletion)
    ensures r.reply.status in {200, 401, 500}
    ensures r.reply.status == 401 <==> SessionId(session).None?
    ensures r.reply.status == 500 <==> SessionId(session).Some? && fails
    ensures r.reply.status != 200 ==> r.transactions == ts
    // exactly the caller's rows that every checked filter matches are removed
    ensures r.reply.status == 200 ==>
      forall k :: (k in r.transactions <==>
                     k in ts && !(ParseInt(SessionId(session).value) == Some(ts[k].userId)
                                  && Matches(BuildFiltersChecked(q), ts[k], holds)))
                  && (k in r.transactions ==> r.transactions[k] == ts[k])
  {
    match SessionId(session)
    case None => Deletion(Reply(401, DeleteError("Unauthorized")), ts)
    case Some(id) =>
      var f := BuildFiltersChecked(q);
      BuildFiltersCheckedArity(q);
      BindUserFirst(f.conds, f.params, id);
      AllHoldUserFirst(id, Bind(f.conds, f.params), holds);
      RunDelete(ts, [UserIs] + f.conds, [id] + f.params, holds, fails)
  }

  /** Where the filters are well formed, the corrected DELETE removes
      exactly the rows the route as written removes that belong to the
      caller: every other user's rows stay. */
  lemma DeleteScopedNarrowsDelete(ts: map<int, Transaction>, session: Option<Session>, q: Query,
                                  holds: (Cond, seq<string>, Transaction) -> bool, fails: bool)
    requires SessionId(session).Some? && !StrayAmount(q)
    ensures var scoped := DeleteScoped(ts, session, q, holds, fails);
            var asWritten := DeleteHandler(ts, q, holds, fails);
            && scoped.reply.status == asWritten.reply.status
            && forall k :: k in ts ==>
                 (k !in scoped.transactions <==>
                    k !in asWritten.transactions && ParseInt(SessionId(session).value) == Some(ts[k].userId))
  {
    BuildFiltersCheckedArity(q);
  }

  // -----------------------------------------------------------------------
  // POST

  /** The body's fields; `amount` is a JSON number, 0 being falsy. */
  datatype NewTransaction = NewTransaction(categoryId: Option<int>, amount: Option<real>,
                                           description: Option<string>, date: Option<string>)

  datatype PostBody = PostError(error: string) | Inserted(id: int)

  predicate RequiredPresent(body: NewTransaction) {
    PresentInt(body.categoryId) && body.amount.Some? && body.amount.value != 0.0 && Present(body.date)
  }

  /** The insert binds the session id, which SQLite stores as an integer;
      the foreign keys refuse an unknown user or category (a 500). An empty
      description is stored as NULL. `fails` is an error the database
      throws at the insert. */
  function PostHandler(db: Db, session: Option<Session>, body: Option<NewTransaction>, fails: bool)
    : (r: (Reply<PostBody>, Db))
    ensures r.0.status in {201, 400, 401, 500}
    ensures r.0.status == 401 <==> SessionId(session).None?
    ensures r.0.status == 400 <==> SessionId(session).Some? && body.Some? && !RequiredPresent(body.value)
    // an unreadable body, a thrown error, or an insert a foreign key refuses
    ensures r.0.status == 500 <==>
      && SessionId(session).Some?
      && (|| body.None?
          || (&& RequiredPresent(body.value)
              && var uid := ParseInt(SessionId(session).value);
              && (|| fails || uid.None? || Find(db.users, IdIs(uid.value)).None?
                  || body.value.categoryId.value !in db.categories)))
    ensures r.0.status != 201 ==> r.1 == db
    ensures r.0.status == 201 ==>
      && !fails && body.Some? && RequiredPresent(body.value)
      && var uid := ParseInt(SessionId(session).value);
      && uid.Some? && Find(db.users, IdIs(uid.value)).Some? && body.value.categoryId.value in db.categories
      && r.0.body == Inserted(db.transactionSeq + 1)
      && r.1 == db.(transactions := db.transactions[db.transactionSeq + 1 :=
                     Transaction(uid.value, body.value.categoryId.value, body.value.amount.value,
                                 if Present(body.value.description) then body.value.description else None,
                                 body.value.date.value)],
                    transactionSeq := db.transactionSeq + 1)
  {
    match SessionId(session)
    case None => (Reply(401, PostError("Unauthorized")), db)
    case Some(id) =>
      if body.None? then (Reply(500, PostError("Failed to create transaction")), db)
      else if !RequiredPresent(body.value) then (Reply(400, PostError("Missing required fields")), db)
      else
        var b := body.value;
        var uid := ParseInt(id);
        if fails || uid.None? || Find(db.users, IdIs(uid.value)).None? || b.categoryId.value !in db.categories then
          (Reply(500, PostError("Failed to create transaction")), db)
        else
          var tid := db.transactionSeq + 1;
          var t := Transaction(uid.value, b.categoryId.value, b.amount.value,
                               if Present(b.description) then b.description else None, b.date.value);
          (Reply(201, Inserted(tid)), db.(transactions := db.transactions[tid := t], transactionSeq := tid))
  }

  /** A successful insert keeps every constraint. */
  lemma PostKeepsValid(db: Db, session: Option<Session>, body: Option<NewTransaction>, fails: bool)
    requires Valid(db)
    ensures Valid(PostHandler(db, session, body, fails).1)
  {
    var r := PostHandler(db, session, body, fails);
    if r.0.status == 201 {
      var uid := ParseInt(SessionId(session).value).value;
      var k := Find(db.users, IdIs(uid)).value;
      assert db.users[k].id == uid;
    }
  }
}

=== FILE: users.dfy ===
/** The `users` table of lib/db.ts as the ban and account code sees it.

    The table is a sequence of rows in rowid order. SQLite answers
    `WHERE LOWER(email) = LOWER(?)` with a full scan in rowid order, and
    better-sqlite3's `.get()` returns the first row found; because the
    `UNIQUE` constraint on `email` is case-sensitive, several rows can match
    case-insensitively, and the first of them is the one every caller sees. */
module Users {
  import opened Common

  datatype Role = Admin | User

  /** The parsed form of the `banned_until` text: `new Date(text)` either
      denotes an instant (milliseconds) or is an Invalid Date. */
  datatype Deadline = At(ms: int) | Unparseable

  datatype UserRecord = UserRecord(
    id: int,
    email: string,
    passwordHash: string,
    name: string,
    role: Role,
    isBanned: bool,
    banReason: Option<string>,
    bannedUntil: Option<Deadline>,
    bannedBy: Option<int>,
    forcePasswordReset: bool,
    createdAt: int,
    updatedAt: int)

  type Table = seq<UserRecord>

  /** Row ids strictly increase along the table (rowid order). */
  ghost predicate IdsAscending(users: Table) {
    forall i, j :: 0 <= i < j < |users| ==> users[i].id < users[j].id
  }

  /** The `UNIQUE` constraint on `email`, which compares case-sensitively. */
  ghost predicate EmailsUnique(users: Table) {
    forall i, j :: 0 <= i < j < |users| ==> users[i].email != users[j].email
  }

  /** The three lookups the core issues against `users`. */
  datatype Key =
    | EmailFolded(email: string)   // WHERE LOWER(email) = LOWER(?)
    | EmailExact(email: string)    // WHERE email = ?
    | IdIs(id: int)                // WHERE id = ?

  predicate Matches(u: UserRecord, key: Key) {
    match key
    case EmailFolded(e) => Lower(u.email) == Lower(e)
    case EmailExact(e) => u.email == e
    case IdIs(i) => u.id == i
  }

  /** The index of the row `.get()` returns: the first match in rowid order. */
  function Find(users: Table, key: Key): (r: Option<nat>)
    ensures r.Some? ==> r.value < |users| && Matches(users[r.value], key)
    ensures r.Some? ==> forall j :: 0 <= j < r.value ==> !Matches(users[j], key)
    ensures r.None? ==> forall j :: 0 <= j < |users| ==> !Matches(users[j], key)
  {
    FindFrom(users, key, 0)
  }

  function FindFrom(users: Table, key: Key, from: nat): (r: Option<nat>)
    requires from <= |users|
    ensures r.Some? ==> from <= r.value < |users| && Matches(users[r.value], key)
    ensures r.Some? ==> forall j :: from <= j < r.value ==> !Matches(users[j], key)
    ensures r.None? ==> forall j :: from <= j < |users| ==> !Matches(users[j], key)
    decreases |users| - from
  {
    if from == |users| then None
    else if Matches(users[from], key) then Some(from)
    else FindFrom(users, key, from + 1)
  }

  /** With ascending ids, the row with a given id is unique. */
  lemma FindIdUnique(users: Table, id: int, i: nat)
    requires IdsAscending(users)
    requires i < |users| && users[i].id == id
    ensures Find(users, IdIs(id)) == Some(i)
  {
  }

  /** Replacing a row by one with the same id and email leaves every lookup's
      answer unchanged. */
  lemma FindAfterUpdate(users: Table, i: nat, u: UserRecord, key: Key)
    requires i < |users|
    requires u.id == users[i].id && u.email == users[i].email
    ensures Find(users[i := u], key) == Find(users, key)
  {
    var users' := users[i := u];
    assert forall j :: 0 <= j < |users| ==> (Matches(users'[j], key) <==> Matches(users[j], key));
    FindSameMatches(users, users', key, 0);
  }

  lemma {:induction false} FindSameMatches(a: Table, b: Table, key: Key, from: nat)
    requires |a| == |b| && from <= |a|
    requires forall j :: 0 <= j < |a| ==> (Matches(a[j], key) <==> Matches(b[j], key))
    ensures FindFrom(a, key, from) == FindFrom(b, key, from)
    decreases |a| - from
  {
    if from < |a| {
      FindSameMatches(a, b, key, from + 1);
    }
  }

  /** The write `UPDATE users SET is_banned = 0, ban_reason = NULL,
      banned_until = NULL WHERE id = ?` that every expiry path performs;
      `banned_by` is not part of it. */
  function ClearExpiredBan(u: UserRecord): (r: UserRecord)
    ensures !r.isBanned && r.banReason.None? && r.bannedUntil.None?
    ensures r.bannedBy == u.bannedBy
    ensures r.(isBanned := u.isBanned, banReason := u.banReason, bannedUntil := u.bannedUntil) == u
  {
    u.(isBanned := false, banReason := None, bannedUntil := None)
  }

  /** `UPDATE ... WHERE id = ?`: apply `f` to every row with that id. */
  function UpdateWhereId(users: Table, id: int, f: UserRecord -> UserRecord): (r: Table)
    ensures |r| == |users|
    ensures forall j :: 0 <= j < |users| && users[j].id != id ==> r[j] == users[j]
    ensures forall j :: 0 <= j < |users| && users[j].id == id ==> r[j] == f(users[j])
  {
    seq(|users|, j requires 0 <= j < |users| => if users[j].id == id then f(users[j]) else users[j])
  }

  /** The expiry write changes no id and no email, so afterwards every
      lookup finds the same row index as before. */
  lemma FindAfterClear(users: Table, id: int, key: Key)
    ensures Find(UpdateWhereId(users, id, ClearExpiredBan), key) == Find(users, key)
  {
    var users' := UpdateWhereId(users, id, ClearExpiredBan);
    assert forall j :: 0 <= j < |users| ==> (Matches(users'[j], key) <==> Matches(users[j], key));
    FindSameMatches(users, users', key, 0);
  }

  /** The ban columns of a freshly inserted row take their declared defaults:
      `is_banned` 0, and `ban_reason`, `banned_until`, `banned_by` NULL;
      `role` defaults to 'user'. */
  function NewUser(id: int, email: string, passwordHash: string, name: string, role: Role, now: int): (u: UserRecord)
    ensures u.id == id && u.email == email && u.passwordHash == passwordHash && u.name == name && u.role == role
    ensures !u.isBanned && u.banReason.None? && u.bannedUntil.None? && u.bannedBy.None?
    ensures !u.forcePasswordReset
  {
    UserRecord(id, email, passwordHash, name, role, false, None, None, None, false, now, now)
  }
}
